=== FILE: README.md ===
# Nachos demand paging, modelled in Dafny

This project models the demand-paging memory manager of a Nachos teaching
kernel, together with the small sequential rules around it.

- **The TLB manager.** The machine's translation cache is a fixed array of
  translation entries. The model covers installing an entry, invalidating a
  slot, looking up a page, and folding the TLB's dirty and read-only bits
  back into the kernel's page directory.
- **The kernel's inverted page table.** Resident pages are keyed by
  (process id, virtual page number), whose string form is `"pid-vpn"`. The
  model covers:
  - loading a page, from the free pool or by evicting a victim;
  - unloading a page;
  - loading a page back from swap;
  - reading and writing entries;
  - the second-chance clock scan.
- **The swap manager.** The model covers:
  - the cyclic victim scan over physical frames, which skips pinned frames;
  - the swap table of evicted pages;
  - swap-slot allocation;
  - the swap file, seen as a map from slot to page bytes.
- **The user kernel's free-frame pool.** This is a FIFO list with single and
  bulk acquire and release. The address helpers `vpn`, `offset` and `addr`
  are modelled with it.
- **The VM process's fault path.** The model covers the TLB flush on a
  context switch, the TLB-miss handler, exception dispatch, and the per-page
  setup of a program's sections.
- **The user process's address-space rules.** The model covers:
  - address validity;
  - the null-terminated string scan;
  - the entry guards of the memory-copy routines;
  - the executable checks and stack and argument layout of `load`;
  - the 16-slot file table.
- **The alarm's wait queue.** This is ordered by wake time. `waitUntil` adds
  to it and the timer interrupt wakes the threads that are due.

Everything is a pure function or a method over immutable values. Several
things the source shares by reference are explicit in the model:

- **Entry objects.** The source shares one entry object between the inverted
  table, the swap table, the frame-owner table and a process's page table.
  The model holds entries by value, and equal entries stand for one object.
  A write to an entry object is `VM.WriteThrough`: every equal entry in the
  free pool, the inverted table, the frame-owner table and the swap table
  takes the new value, under whatever key or index it sits. These writes
  go through it:
  - `VM.LoadPage` marking the pool's head valid;
  - `VM.ReleaseShared` marking a released entry invalid, for both unloads;
  - `VM.LoadPageFromSwap` giving a swapped entry its new frame;
  - `VMProc.LoadSectionPage` setting the vpn and read-only flag, which also
    reaches the process's page table.

  `Tlb.UpdateInvertedTable` and `VM.ClockAlgorithm` update only the table
  they are given, and a write in the kernel does not reach other processes'
  page tables; see "Left out".
- **Outside inputs.** The following become parameters:
  - the hashtable's enumeration order, as a sequence of keys;
  - `Lib.random`'s choice of TLB slot, as an index;
  - physical memory, as a byte sequence;
  - the current time.
- **Java arithmetic.** Java's truncating `/` and `%`, 32-bit `int` and
  64-bit `long` wrap-around are written out where they matter.

Modules, one per source file plus two shared ones:

| module | file | models |
|---|---|---|
| `Common` | common.dfy | translation entries, frame-owner records, bytes and pages, Java division |
| `PageKeys` | page_key.dfy | `VMKernel.PageTableKey` and its `"pid-vpn"` string |
| `FreePool` | user_kernel.dfy | `UserKernel`: free list, address helpers |
| `Tlb` | tlb_manager.dfy | `TLBManager` |
| `Swap` | swap_manager.dfy | `SwapManager` |
| `VM` | vm_kernel.dfy | `VMKernel` |
| `Process` | user_process.dfy | `UserProcess` |
| `VMProc` | vm_process.dfy | `VMProcess` |
| `Alarm` | alarm.dfy | `Alarm` and its `Waiter` |

Two files the core depends on are not part of this model.

- **Processor.java.** The model takes two facts from the Nachos machine:
  - the page size is 0x400 bytes;
  - `pageFromAddress` reads the address as an unsigned 32-bit number and
    divides it by the page size.
- **PageInfo.java.** Its shape, (pid, entry), is inferred from its uses in
  `SwapManager` and `VMKernel`.

## Model

| member | source | states |
|---|---|---|
| PageKeys.EncodeRoundTrip | vm/VMKernel.java:190-200 | For a key with non-negative pid and vpn, parsing its `"pid-vpn"` string gives the key back. |
| PageKeys.EncodeInjective | vm/VMKernel.java:199 | Two keys with non-negative fields have the same string exactly when they are the same key. So keying the tables by string or by structure is the same. |
| FreePool.Initialize | userprog/UserKernel.java:34-36 | The initial pool has one invalid entry per physical frame, with frame numbers 0..N-1 in order. |
| FreePool.InitialPoolHoldsEachFrameOnce | userprog/UserKernel.java:34-36 | A pool of that shape holds every frame of the machine exactly once, and no other frame. |
| FreePool.AcquirePage | userprog/UserKernel.java:123-129 | Returns the pool's head marked valid. The pool loses exactly that entry, so its multiset of frames loses exactly that frame. A missing or null head is a precondition, because the source dereferences it. |
| FreePool.AcquirePages | userprog/UserKernel.java:131-143 | If the pool is empty or shorter than n, the result is null and the pool is untouched. Otherwise the result is the first n entries in order, all marked valid, and exactly those leave the pool. The frames handed out plus the frames left equal the pool's frames. |
| FreePool.ReleasePage | userprog/UserKernel.java:149-154 | The entry, marked invalid, is appended at the tail; the rest of the pool is unchanged. The pool gains exactly that frame. |
| FreePool.InvalidateAll | userprog/UserKernel.java:156-163 | The slots a page table gives back, in table order: each present entry marked invalid, each null slot kept null. They hold exactly the table's frames. |
| FreePool.ReleasePages | userprog/UserKernel.java:156-163 | The loop leaves the pool followed by the table's slots, each invalidated, in order. The pool's frames grow by exactly the table's frames. |
| FreePool.AvailablePagesCount | userprog/UserKernel.java:131-171 | The available count follows the pool. A granted bulk acquire of n lowers it by n, and a refused one leaves it. A release raises it by one. Releasing a page table raises it by the table's length, null slots included. |
| FreePool.AcquireThenReleaseConservesFrames | userprog/UserKernel.java:123-154 | Acquiring the head and releasing it again keeps the available count and the multiset of frames. The frame moves from the head to the tail, which is FIFO reuse. |
| FreePool.AddressSplitJoin | userprog/UserKernel.java:174-182 | `addr(vpn(a), offset(a)) == a` for every address. For a ≥ 0 the offset lies in [0, pageSize) and the page number is non-negative. |
| FreePool.AddressJoinSplit | userprog/UserKernel.java:174-182 | Joining page pn and an in-page offset, then splitting the result, gives pn and the offset back. |
| FreePool.Vpn | userprog/UserKernel.java:174-176 | For a ≥ 0, the page number is the page that contains a. For a < 0, Java's truncation rounds toward zero, so the page number is ≤ 0 and a lies in the page just below it. |
| FreePool.Offset | userprog/UserKernel.java:177-179 | For a ≥ 0 the offset lies in [0, pageSize). For a < 0 it lies in (−pageSize, 0], with the sign of the dividend. |
| FreePool.Addr | userprog/UserKernel.java:180-182 | With an in-page offset, the address lies inside page pn. |
| Tlb.FirstInvalid | vm/TLBManager.java:14-20 | The search loop of `add`: it finds the lowest invalid slot, or reports that every slot is valid. |
| Tlb.Add | vm/TLBManager.java:12-24 | If some slot is invalid, the entry goes into the lowest invalid slot. If every slot is valid, it goes into the randomly chosen slot. Exactly one slot changes. |
| Tlb.Invalidate | vm/TLBManager.java:26-30 | Clears only slot i's valid bit. Its other fields and every other slot are kept. |
| Tlb.FirstMatch | vm/TLBManager.java:48-50 | The search loop of `find`: it finds the first valid slot that maps the vpn, or reports that there is none. |
| Tlb.Find | vm/TLBManager.java:47-60 | The outcome depends on the first valid slot that maps the vpn. With no match, the result is null and nothing changes. A write to a read-only page gives null and nothing changes. Any other hit sets used, ORs the write into dirty, and writes the slot back. Dirty is never cleared. |
| Tlb.AddThenFindHits | vm/TLBManager.java:12-60 | A lookup right after an install finds the installed entry with its frame. This holds when no other valid slot maps the page and the access is allowed. |
| Tlb.InvalidateHidesSlot | vm/TLBManager.java:26-30 | Once the only slot mapping a page is invalidated, a lookup of that page misses. |
| Tlb.UpdateInvertedTable | vm/TLBManager.java:32-45 | Each directory entry ends as its old bits ORed with the dirty and read-only bits of every valid slot that caches it for this pid. No bit is cleared. No key is added. Keys of other processes are unchanged, unless they share a folded entry (see "Left out"). |
| Swap.FirstUnpinned | vm/SwapManager.java:20-23 | The scan loop: it finds the first step whose frame is unpinned, or reports that every step hits a pinned frame. |
| Swap.GetPhysPageToSwap | vm/SwapManager.java:16-29 | Returns the owner record of the first unpinned frame in the cyclic scan from the pointer, and moves the pointer just past that frame. If every scanned frame is pinned, the result is null and the pointer stays. The modulus is a parameter. |
| Swap.ScanPastFrameTable | vm/SwapManager.java:21 | With the page size as the modulus, as written, a second scan on a two-frame machine picks frame 2, outside the frame-owner table. |
| Swap.VictimFrameInRange | vm/SwapManager.java:19-25 | With the frame count as the modulus and a non-negative pointer, every frame the scan can pick lies inside the frame-owner table. |
| Swap.GetFreeSlotAsWritten | vm/SwapManager.java:57-61 | Polls the least free slot. If that empties the queue, it answers the swap table's size instead. Polling an empty queue is a precondition, because the source unboxes null. |
| Swap.FreeSlotAsWrittenHitsLiveSlot | vm/SwapManager.java:59 | A consistent store exists where the slot handed out as written already holds a recorded page. |
| Swap.TableSizeSlotHitsLiveSlot | vm/SwapManager.java:57-61 | A reachable consistent store exists where two things go wrong. The free queue is empty, so the poll cannot be served. The table-size fresh slot is the slot of a live page. |
| Swap.GetFreeSlot | vm/SwapManager.java:57-61 | The corrected allocation returns the least queued slot. When the queue is empty, it returns a slot never handed out before, from a high-water mark. This differs from the source's fresh slot, the swap table's size (see "Findings"). The slot returned never holds a recorded page. |
| Swap.FrameContent | vm/SwapManager.java:63-67 | A frame's content is its page-sized slice of physical memory. |
| Swap.SwapIn | vm/SwapManager.java:32-40 | Records the victim's entry under (pid, vpn) and leaves every other key alone. Writes the frame's bytes to the allocated slot. Clears the frame's owner record. Returns a fresh entry for the same frame: valid, writable, unused and clean. Store consistency is preserved. |
| Swap.SwapInKeepsOtherPages | vm/SwapManager.java:32-40 | Swapping a page out never changes the stored bytes of any other recorded page. |
| Swap.ReleaseSPN | vm/SwapManager.java:42-47 | Returns the entry recorded for the key, or null. Removes that key only. |
| Swap.RetrieveAsWrittenAgreesWhenSlotIsVpn | vm/SwapManager.java:49-55 | The as-written retrieval, which reads the slot numbered by the recorded vpn, agrees with the corrected one whenever the page sits in that slot. |
| Swap.RetrieveAsWrittenReadsWrongSlot | vm/SwapManager.java:53 | A page of sevens swapped out as vpn 3 reads back as zeros through the as-written retrieval. |
| Swap.SwapRoundTrip | vm/SwapManager.java:32-55 | Round trip: the corrected retrieval of a swapped-out page gives back exactly the bytes of the frame it was taken from. |
| Swap.RetrieveSwapPage | vm/SwapManager.java:49-55 | The corrected retrieval reads the slot the page was written to. In a consistent store, that slot has been written and holds a whole page. |
| Swap.FindAfterSwapIn | vm/SwapManager.java:32-40 | After a page is swapped out, `find` (line 74) of its key gives the entry it was recorded with. `find` of every other key is unchanged. |
| Swap.FindAfterRelease | vm/SwapManager.java:42-47 | `releaseSPN` returns exactly what `find` (line 74) reported for the key. Afterwards `find` of that key gives null, and every other key is unchanged. |
| VM.LoadPage | vm/VMKernel.java:73-104 | With a free head, takes it from the pool and marks it valid; every kernel table still holding that entry (the rest of the pool, the inverted table, the owner records, the swap table) sees it valid, and nothing else changes. Otherwise evicts the scan's victim through `swapIn` and gives its frame to (pid, vpn). The entry is fresh, so every other inverted key, every other swap record and every other frame's owner record is unchanged, and the swap store is the one `swapIn` leaves, page written. In both cases the inverted table maps (pid, vpn) to the returned entry and the frame's owner record is (pid, entry). |
| VM.LoadPageTakesOneFrame | vm/VMKernel.java:78-81 | Loading from the free pool moves exactly one frame out of the pool: the returned entry's frame. |
| VM.LoadPageEvictionKeepsVictimMapped | vm/VMKernel.java:82-89 | After an eviction, the victim's key is both in the swap table and still in the inverted table, mapped to the frame the new page now uses. |
| VM.WriteThroughReachesEveryCopy | userprog/UserKernel.java:149-154 | A write to a shared entry reaches every copy in every kernel table and nothing else. When the value changes, no table holds the old value afterwards, and a write that keeps the frame number keeps the pool's frames. |
| VM.ReleaseShared | userprog/UserKernel.java:149-154 | `releasePage(te)` appends the invalidated entry to the pool, which gains exactly te's frame. Every reference to the object, under any key, in the pool, the inverted table, the owner records and the swap table, sees it invalid; no valid copy remains in the inverted table; every other reference is unchanged. |
| VM.UnloadPageAsWritten | vm/VMKernel.java:106-113 | As written, the entry returns to the pool marked invalid, adding its frame. Every inverted key and owner record that shares the entry sees it invalid; the others are unchanged. The key stays in the inverted table, mapped to the invalid entry. |
| VM.UnloadTwiceAsWrittenFreesFrameTwice | vm/VMKernel.java:111 | Unloading the same page twice as written puts its frame in the free pool twice, while the page stays mapped to it. |
| VM.UnloadPage | vm/VMKernel.java:106-113 | The corrected unload returns the entry to the pool marked invalid, adding its frame. Every remaining inverted key and owner record that shares the entry sees it invalid; the others are unchanged. Exactly its key leaves the inverted table. Unloading a page that is not resident changes nothing. |
| VM.LoadThenUnloadReleasesFrame | vm/VMKernel.java:73-113 | Load then unload returns the loaded frame to the pool. The frame's owner record holds the invalidated entry. The corrected unload removes the key. As written, the key stays mapped to the invalid entry. |
| VM.UnloadPageIdempotent | vm/VMKernel.java:106-113 | Unloading twice equals unloading once, so a frame is released at most once per load. |
| VM.StaleKeySharesReusedFrame | vm/VMKernel.java:106-113 | As written, once another page takes the released entry from the pool, the key the removal missed sees the entry valid again: two pages map to one frame. After the corrected unload, the key is gone. |
| VM.LoadPageFromSwap | vm/VMKernel.java:116-125 | The swapped-out entry takes frame ppn and becomes that frame's owner record. The inverted table maps the key to it. Every other reference to the object, in the swap table (which keeps the key), the pool, other inverted keys and owner records, sees the new frame; all other references are unchanged. |
| VM.EvictThenReloadRestoresEntry | vm/VMKernel.java:116-125 | Evicting a page (lines 82-90) and loading it back from swap into frame p restores it. `getEntry` of the victim's key gives the entry it was swapped out with, now on frame p, and frame p's owner record agrees. |
| VM.SwapRecordFollowsReusedFrame | vm/VMKernel.java:116-135 | The swap record kept by a reload shares the entry. After the corrected unload and a reuse of the entry by another page, `getEntry` of the unloaded page returns the revalidated entry, on the frame the other page now owns. |
| VM.GetEntry | vm/VMKernel.java:127-135 | Returns the resident entry if there is one, else the swapped-out entry, else null. |
| VM.SetEntry | vm/VMKernel.java:137-145 | Files a fresh entry (vpn, ppn, valid, writable, used, clean) under the key, replacing any previous one. Nothing else changes. |
| VM.SetThenGetEntry | vm/VMKernel.java:127-145 | After `setEntry`, `getEntry` of that page returns the new entry, and every other page's lookup is unchanged. |
| VM.FirstUnused | vm/VMKernel.java:157-160 | The scan stops at the first key, in enumeration order, whose entry is unused; before it every entry is used. |
| VM.Sweep | vm/VMKernel.java:166-171 | Each entry the scan passes gets a second chance: a used, clean entry loses its used bit and a used, dirty entry is kept. Entries not yet passed are untouched, and no key changes. |
| VM.Passed | vm/VMKernel.java:156-173 | The scan passes every key before the first unused entry, or all keys when every entry is used. Each passed entry was used. |
| VM.ClockAlgorithm | vm/VMKernel.java:147-188 | An empty table returns null and changes nothing. Otherwise a victim is returned, `value` takes the victim's frame, and `value` is filed under the new key. |
| VM.ClockVictim | vm/VMKernel.java:157-184 | The victim is the first unused entry, unchanged. When every entry is used, it is the first key's entry after its second chance. So a used victim means every entry was used and the first was dirty. |
| VM.ClockTable | vm/VMKernel.java:157-184 | The victim's key is removed. The new key holds the caller's entry. Entries passed before the stop have had their second chance. Entries after the stop are untouched. Assumes no two keys share an entry (see "Left out"). |
| VM.ClockCanEvictUsedPage | vm/VMKernel.java:174-184 | With one resident page that is used and dirty, the clock evicts it although its used bit is set. |
| Process.PageFromAddress | userprog/UserProcess.java:429 | A non-negative address's page is `vpn(a)`. A negative address lands in the upper half of the page range. |
| Process.ValidAddress | userprog/UserProcess.java:428-431 | A non-negative address is valid exactly when its page number is below numPages. A negative address is never valid in an address space of at most half the 32-bit range. |
| Process.ValidAddressIsInRange | userprog/UserProcess.java:428-431 | For an address space of at most half the 32-bit range, an address is valid exactly when 0 ≤ a < numPages·pageSize. |
| Process.FirstZero | userprog/UserProcess.java:105-109 | Finds the first zero byte among the first n bytes, or reports that there is none. |
| Process.ReadVirtualMemoryString | userprog/UserProcess.java:98-112 | The result is null exactly when no zero is among the bytes read. Otherwise it is the zero-free prefix before the first zero. |
| Process.AccessPages | userprog/UserProcess.java:140-157 | An invalid start address is rejected with -1 and nothing is touched. Otherwise every page from the start page to the page of start + length, in 32-bit arithmetic, is marked used. For a write (lines 194-210) it is also marked dirty. All other slots are unchanged. |
| Process.Mark | userprog/UserProcess.java:155-157 | A copied page is marked used. It is dirty exactly when it was dirty or the copy writes it (lines 207-210). No other field changes. |
| Process.MarkingIsMonotoneAndIdempotent | userprog/UserProcess.java:155-157 | Marking never clears used or dirty, and marking the same range again changes nothing. |
| Process.CountContiguousIsContiguous | userprog/UserProcess.java:250-260 | The section loop accepts exactly the executables where each section starts where the previous ones end. The count it returns is the total of their pages. |
| Process.ArgsSize | userprog/UserProcess.java:262-269 | The arguments take 4 bytes each for the pointer plus their strings and null bytes. So each takes at least 5 bytes. |
| Process.Load | userprog/UserProcess.java:250-295 | A fragmented executable is refused. Arguments larger than a page are refused. Otherwise numPages = section pages + 8 + 1, the initial stack pointer is (section pages + 8)·pageSize, argv starts at (numPages − 1)·pageSize, and the strings start 4·argc bytes later. |
| Process.ArgumentsFitInLastPage | userprog/UserProcess.java:262-295 | In an accepted layout, the argument page begins at the stack top, the strings follow the pointer table, and everything ends within the last page. |
| Process.NewFileTable | userprog/UserProcess.java:38-40 | A new process has 16 descriptor slots: slot 0 is the console input, slot 1 the console output, and the rest are free. |
| Process.NewTableGivesDescriptorTwo | userprog/UserProcess.java:38-40 | The first descriptor handed out to a new process is 2. |
| Process.FirstFreeSlot | userprog/UserProcess.java:417-419 | The search loop: it finds the lowest free slot at or after a start index, or reports that there is none. |
| Process.GetFileDescriptor | userprog/UserProcess.java:416-421 | Returns the lowest free slot, or -1 exactly when all slots are open. |
| Process.HandleClose | userprog/UserProcess.java:515-524 | An open descriptor in [0, 16) is freed and returned. Any other argument returns -1 and changes nothing. |
| Process.CloseMakesDescriptorAvailable | userprog/UserProcess.java:515-524 | After a successful close, the next descriptor handed out is at most the closed one. It is exactly the closed one if the table was full. |
| VMProc.RestoreState | vm/VMProcess.java:33-41 | Every TLB slot becomes invalid and keeps its other fields. |
| VMProc.RestoreStateHidesEveryPage | vm/VMProcess.java:33-41 | After a context switch every TLB lookup misses. |
| VMProc.PageTableEntry | userprog/UserProcess.java:745-748 | Returns the page-table slot of a valid address, or null for an invalid one. |
| VMProc.HandleTLBMiss | vm/VMProcess.java:119-130 | An invalid address returns -1 and changes nothing. A valid page-table entry is installed without calling `loadPage`. Otherwise `loadPage(pid, vpn(vaddr))` supplies the entry. The page table is not updated. The result is the installed entry's frame. |
| VMProc.MissThenLookupHits | vm/VMProcess.java:119-130 | After a miss, a TLB lookup of the faulting page hits and translates to the returned frame. This holds when the installed entry maps that page and is allowed for the access. |
| VMProc.MissFromFreePoolInstallsStaleVpn | vm/VMProcess.java:122-128 | A page loaded from the free pool keeps the pool entry's vpn. So the TLB slot filled maps that vpn, not the faulting one, whenever the two differ. |
| VMProc.HandleException | vm/VMProcess.java:106-116 | A TLB miss runs the miss handler twice on the bad address, and the second result goes to V0. A syscall goes to the syscall dispatcher. Any other cause ends the process with -1 (userprog/UserProcess.java lines 724-741). |
| VMProc.OneMissTakesTwoFrames | vm/VMProcess.java:108-111 | One miss on an unmapped page, served from the free pool, takes two frames. V0 receives the second. The rest of the pool keeps its frames, and its entries change at most in their valid bits. |
| VMProc.LoadSectionPage | vm/VMProcess.java:68-77 | Page i of a section is loaded under key (pid, i) and then takes the page's vpn and the section's read-only flag. Every reference to the loaded entry sees both: the page table at that vpn and any other slot, the inverted table under any key, the frame's owner record, and the pool, which keeps its frames. |
| VMProc.SectionPageThenMissHits | vm/VMProcess.java:119-130 | After a section page is set up (lines 68-77), a miss on an address of that page takes the page-table entry as it is. It installs the entry in the TLB, returns its frame, and leaves the kernel unchanged. |
| VMProc.SectionKeysCollide | vm/VMProcess.java:68-72 | Page 0 of two sections share key (pid, 0). Afterwards the inverted table records only the second, while the page table still maps the first section's page to another frame. |
| Alarm.Compare | threads/Alarm.java:96-105 | `compareTo` returns -1, 0 or 1. |
| Alarm.CompareIsTotalPreorder | threads/Alarm.java:97-105 | The comparison is the sign of the wake-time difference. It is antisymmetric, transitive and total, and it ties exactly on equal wake times. |
| Alarm.Insert | threads/Alarm.java:69 | Adding a waiter keeps the queue in wake-time order and adds exactly that waiter. |
| Alarm.WaitUntil | threads/Alarm.java:65-74 | x = 0 leaves the queue as it is. Any other x adds exactly one waiter for the current thread, with wake time now + x in 64-bit arithmetic. The queue stays ordered. |
| Alarm.Due | threads/Alarm.java:41-45 | The due waiters are queued waiters whose wake time has come. |
| Alarm.TimerInterrupt | threads/Alarm.java:33-51 | The woken waiters followed by the remaining ones are the queue. The woken are exactly the due waiters, in wake-time order. Every remaining waiter wakes later than now. |
| Alarm.WaiterIsDueOnceTimeHasCome | threads/Alarm.java:54-59 | A thread that waits x > 0 ticks is among the due waiters at every time at or after now + x. |

## Findings

| source | as written | input that shows it | evidently intended | confidence | as-written member | corrected member |
|---|---|---|---|---|---|---|
| vm/SwapManager.java:21 | The scan frame is `(i + swapPointer) % Processor.pageSize`. | Latent, since as written the scan first dereferences the never-initialised `pinnedPages` and throws. Were the pinned set initialised: two frames, nothing pinned, pointer 1. The scan takes frame 1 and sets the pointer to 2. The next scan picks frame 2 and indexes the two-entry owner table out of range. | Take the frame modulo the number of physical frames. | not executed | Swap.ScanPastFrameTable | Swap.VictimFrameInRange |
| vm/SwapManager.java:53 | `retrieveSwapPage` reads at `te.vpn * pageSize`. | Process 0's vpn 3, a page of sevens, is swapped into an empty swap file, so it goes to slot 0. Reading it back reads slot 3, which yields zeros. | Read the slot the page was written to. | not executed | Swap.RetrieveAsWrittenReadsWrongSlot | Swap.SwapRoundTrip |
| vm/SwapManager.java:57-59 | Nothing ever adds to `freeSwapPages`, so the poll at line 58 returns null and unboxing it throws. Line 59 numbers a fresh slot by the swap table's size. | On a fresh store, the first swap-out throws at the poll. With the poll guarded: swap out A (slot 0) and B (slot 1), then release A. The table has one key, so the next fresh slot is 1, which holds B's page. | Hand out a slot no recorded page holds: the least queued slot, or else one never handed out. | not executed | Swap.TableSizeSlotHitsLiveSlot | Swap.GetFreeSlot |
| vm/SwapManager.java:59 | When the poll empties the free queue, the polled slot is replaced by the swap table's size. | Latent, since nothing ever queues a free slot (the row above). Were slots queued: one page recorded in slot 1 and slot 0 queued as free. The poll takes 0, empties the queue, and answers 1, the live page's slot. | Keep the polled slot. | not executed | Swap.FreeSlotAsWrittenHitsLiveSlot | Swap.GetFreeSlot |
| vm/VMKernel.java:111 | `remove(key)` passes a `PageTableKey` object to a String-keyed table, so nothing is removed. | Unload a resident page twice. Its frame enters the free pool twice and stays mapped. | `remove(key.toString())`. | not executed | VM.UnloadTwiceAsWrittenFreesFrameTwice | VM.UnloadPageIdempotent |

The rest of the model uses the corrected definitions:

- `VM.LoadPage` scans with the frame count as the modulus.
- `Swap.SwapIn` allocates through `Swap.GetFreeSlot`. It never overwrites
  a live slot, and `Swap.SwapRoundTrip` and `Swap.SwapInKeepsOtherPages`
  depend on that.
- Swapped pages are read back through `Swap.RetrieveSwapPage`.
- `VM.UnloadPage` removes the key from the inverted table.

## Source behaviour kept as written

These are odd, but the model keeps them and states them as they are.

- `loadPage` evicts without removing the victim's key from the inverted
  table (`VM.LoadPageEvictionKeepsVictimMapped`).
- The free path of `loadPage` does not set the entry's vpn
  (`VMProc.MissFromFreePoolInstallsStaleVpn`).
- `loadSections` loads section page i under the key (pid, i), the index
  within the section, not under the page's vpn (`VMProc.SectionKeysCollide`).
- `handleException` runs the miss handler twice per TLB miss
  (`VMProc.OneMissTakesTwoFrames`).
- `handleTLBMiss` never writes the loaded entry into the page table.
- `loadPageFromSwap` leaves the key in the swap table, sharing the entry
  (`VM.SwapRecordFollowsReusedFrame`).
- `clockAlgorithm`'s fallback takes the first key of a fresh enumeration.
  That is `order[0]`, because the scan adds and removes no key. This victim
  may be used and dirty (`VM.ClockCanEvictUsedPage`).
- `releaseSPN` does not return the slot to the free queue.

## Left out

- **`Communicator`, and locks, interrupts and scheduling.** These are
  concurrency. Every operation is treated as atomic, and `KThread` sleep,
  ready and yield are not modelled.
- **Real I/O.** The swap file's `OpenFile` becomes a map from slot to page.
  The console, the file system, COFF parsing and `section.loadPage` are
  left out. A section is (firstVPN, length, readOnly), and file-table
  entries are opaque ids.
- **The byte-copy loops of `readVirtualMemory` and `writeVirtualMemory`**
  (userprog/UserProcess.java:155-164 and 207-217). Their offset arithmetic
  is inconsistent. Only the entry guard and the used/dirty marking are
  modelled.
- **`VMProcess.readVirtualMemory` and `writeVirtualMemory`.** They look up
  a String-keyed table with a `PageTableKey` object, get null and
  dereference it. They only crash.
- **Crash paths.** These become preconditions. Called from `loadSections`,
  a `loadPage` failure is swallowed instead (see `VMProc.LoadSectionPage`
  below):
  - polling an empty or null-headed pool;
  - polling the empty free-slot queue;
  - a null victim in `swapIn`;
  - a page-table index out of range;
  - a missing swap-table key in `loadPageFromSwap`.
- **Swap.FrameContent:** `getPageContent` copies `ppn * pageSize` bytes
  into a one-page buffer. That copies nothing for frame 0 and throws for
  frames 2 and up. The model takes the frame's page-sized slice instead.
- **Two fields the source never initialises.** The source never fills
  `freeSwapPages` and never initialises `pinnedPages`. The model takes the
  free queue and the pinned set as state. As written, the first eviction
  would dereference the null pinned set.
- **The `loadPageFromSwap`/`clockAlgorithm` branch of `loadSections`.** It
  is reachable only when `loadPage` returns null, which it never does (it
  throws instead). Both operations are modelled on their own.
  `unloadSections` and `saveState` are left out: the first is a loop of
  unloads, the second does nothing of its own.
- **VMProc.LoadSectionPage:** only one page's setup is modelled. The loop
  over all sections and pages is not one member, because each step's
  precondition depends on the state the previous load left. The model also
  does not show how the loop treats a failure. Its catch-all
  (vm/VMProcess.java:97-99) swallows any exception `loadPage` throws, for
  example on an empty pool with no victim. Loading then stops at that page,
  and `loadSections`, and so `load`, still reports success.
- **Syscall handling.** This covers `handleSyscall` and the handlers for
  exec, join, exit, halt, create and open. `handleException` stops at
  "dispatched".
- **VMProc.HandleException:** the register writes are left out; the value
  destined for V0 is returned. So is `advancePC`: on a TLB miss
  (vm/VMProcess.java:112) it moves the program counter past the faulting
  instruction, which is then never retried.
- **FreePool.Addr:** computes in unbounded integers. Java wraps
  `pn * pageSize + offset` at 32 bits, which matters only for page numbers
  of 2^21 and above.
- **Process.Load:** the layout is computed in unbounded integers. Java's
  `int` wraps `initialSP = numPages * pageSize` and `entryOffset` once
  numPages reaches 2^21 pages. The page count and argument-size sums would
  wrap only near 2^31.
- **Alarm.Insert:** the order among waiters with equal wake times is not
  the one Java's binary heap happens to produce. Only the wake-time order
  is promised.
- **Process.ReadVirtualMemoryString:** the buffer and the count the read
  reported are parameters, and the string stays a byte sequence with no
  character decoding.
- **Tlb.UpdateInvertedTable:** the dirty and read-only bits are ORed into
  the inverted table only. In the source, the same entry object is also the
  frame's owner record and a process's page-table slot, so those see the
  bits too. In the model, a later eviction records the owner record's
  entry, which may still be clean, in the swap table. Within the inverted
  table, the bits reach only the key (pid, slot vpn). Another key holding
  the same object, which the source can reach (`VM.StaleKeySharesReusedFrame`),
  sees them in the source but keeps its old bits in the model. The fold is
  never called from the rest of the program.
- **VM.ClockAlgorithm:** the second chance, clearing the used bit, is
  written into the table argument only, not into the owner records or page
  tables that share the entries. Within the table, it reaches only the key
  being passed. In the source, other keys holding the same object see the
  bit cleared and the scan tests that cleared bit when it reaches them.
  The first key then gets the second chance and a later key holding the
  same entry is found unused. With {A, B} both mapped to one used, clean
  entry and the order [A, B], the source evicts B and the model evicts A.
  The clock is never called from the rest of the program.
- **VM.Sweep:** a key not yet passed keeps its entry even when it shares
  that entry with a key already passed.
- **VM.ClockTable:** its statement of which key leaves the table, and of
  the passed and unpassed entries, is exact only when no two keys of the
  table hold the same entry; with a shared entry the source may remove a
  later key (see `VM.ClockAlgorithm` above).
- **VM.WriteThrough:** equal entries stand for one object. Two distinct
  objects with equal fields are therefore treated as one, and a write to
  one reaches the other in the model. The fresh entry of the eviction path
  or of `setEntry` may coincide in value with an entry held elsewhere.
- **VM.ReleaseShared:** a process's page table is not kernel state in the
  model, so the invalidation does not reach a page-table slot that holds
  the same object. The same goes for the writes in `VM.LoadPage` and
  `VM.LoadPageFromSwap`. Only `VMProc.LoadSectionPage` has the page table
  at hand and writes it.
- **Debug output.** `Lib.debug` and `System.out.println` are not modelled.

=== FILE: alarm.dfy ===
/** The alarm's wait queue: sleeping threads ordered by wake time, filled by
    `waitUntil` and drained by the timer interrupt. Threads are opaque ids;
    the priority queue is a sequence kept in non-decreasing wake-time order,
    which is the order in which the heap hands its elements out. */
module Alarm {

  /** A thread, identified opaquely. */
  type ThreadId = nat

  /** A sleeping thread and the time at which it may run again. */
  datatype Waiter = Waiter(thread: ThreadId, wakeTime: int)

  const Int64Min: int := -0x8000_0000_0000_0000
  const Int64Max: int := 0x7FFF_FFFF_FFFF_FFFF

  predicate IsInt64(x: int) {
    Int64Min <= x <= Int64Max
  }

  /** Java's long addition: the sum wrapped into 64 bits. */
  function Wrap64(x: int): (r: int)
    ensures IsInt64(r)
    ensures IsInt64(x) ==> r == x
  {
    (x - Int64Min) % 0x1_0000_0000_0000_0000 + Int64Min
  }

  /** `Waiter.compareTo`: -1, 0 or 1 as this waiter's wake time is below,
      equal to or above the other's. */
  function Compare(a: Waiter, b: Waiter): (c: int)
    ensures c == -1 || c == 0 || c == 1
  {
    if a.wakeTime < b.wakeTime then -1
    else if a.wakeTime > b.wakeTime then 1
    else 0
  }

  /** The comparison is the sign of the wake-time difference, so it orders
      waiters by a total preorder: antisymmetric in sign, transitive, and
      ties exactly on equal wake times. */
  lemma CompareIsTotalPreorder(a: Waiter, b: Waiter, c: Waiter)
    ensures Compare(a, b) < 0 <==> a.wakeTime < b.wakeTime
    ensures Compare(a, b) == 0 <==> a.wakeTime == b.wakeTime
    ensures Compare(a, b) == -Compare(b, a)
    ensures Compare(a, b) <= 0 && Compare(b, c) <= 0 ==> Compare(a, c) <= 0
    ensures Compare(a, b) <= 0 || Compare(b, a) <= 0
  {
  }

  /** The queue hands out waiters in non-decreasing wake-time order. */
  predicate Sorted(q: seq<Waiter>) {
    forall i, j :: 0 <= i < j < |q| ==> q[i].wakeTime <= q[j].wakeTime
  }

  /** The queue with one more waiter, placed after every waiter that does
      not wake later than it. */
  function Insert(q: seq<Waiter>, w: Waiter): (r: seq<Waiter>)
    requires Sorted(q)
    ensures Sorted(r)
    ensures multiset(r) == multiset(q) + multiset{w}
    ensures |r| == |q| + 1
  {
    if |q| == 0 then [w]
    else if Compare(w, q[0]) < 0 then [w] + q
    else
      var tail := Insert(q[1..], w);
      InsertBehindHead(q, w, tail);
      [q[0]] + tail
  }

  /** A waiter that does not wake before the head goes behind it: the head
      followed by the tail with the waiter inserted is sorted and holds
      the queue plus that waiter. */
  lemma InsertBehindHead(q: seq<Waiter>, w: Waiter, tail: seq<Waiter>)
    requires Sorted(q) && |q| > 0 && q[0].wakeTime <= w.wakeTime
    requires Sorted(tail) && multiset(tail) == multiset(q[1..]) + multiset{w}
    ensures Sorted([q[0]] + tail)
    ensures multiset([q[0]] + tail) == multiset(q) + multiset{w}
  {
    assert q == [q[0]] + q[1..];
    forall j | 0 <= j < |tail|
      ensures q[0].wakeTime <= tail[j].wakeTime
    {
      assert tail[j] in multiset(tail);
      if tail[j] != w {
        assert tail[j] in multiset(q[1..]);
        var k :| 0 <= k < |q[1..]| && q[1..][k] == tail[j];
        assert q[k + 1] == tail[j];
      }
    }
  }

  /** `waitUntil(x)` at time `now`: x == 0 leaves the queue as it is;
      any other x enqueues the current thread once, with wake time
      now + x in 64-bit arithmetic. */
  function WaitUntil(q: seq<Waiter>, thread: ThreadId, now: int, x: int): (r: seq<Waiter>)
    requires Sorted(q)
    requires IsInt64(now) && IsInt64(x)
    ensures Sorted(r)
    ensures x == 0 ==> r == q
    ensures x != 0 ==> multiset(r) == multiset(q) + multiset{Waiter(thread, Wrap64(now + x))}
  {
    if x != 0 then Insert(q, Waiter(thread, Wrap64(now + x))) else q
  }

  /** The waiters due at time `now`: those whose wake time has come. */
  function Due(q: seq<Waiter>, now: int): (r: seq<Waiter>)
    ensures forall w :: w in r ==> w in q && w.wakeTime <= now
  {
    if |q| == 0 then []
    else if q[0].wakeTime <= now then [q[0]] + Due(q[1..], now)
    else Due(q[1..], now)
  }

  /** `timerInterrupt` at time `now`: takes waiters from the head of the
      queue while the head's wake time has come and readies them in that
      order. Exactly the due waiters are woken, the rest stay queued in
      their order, and all of them wake later than now. */
  method TimerInterrupt(q: seq<Waiter>, now: int) returns (woken: seq<Waiter>, rest: seq<Waiter>)
    requires Sorted(q)
    ensures woken + rest == q
    ensures woken == Due(q, now)
    ensures forall i :: 0 <= i < |rest| ==> rest[i].wakeTime > now
    ensures Sorted(woken) && Sorted(rest)
  {
    var n := 0;
    while n < |q| && q[n].wakeTime <= now
      invariant 0 <= n <= |q|
      invariant forall i :: 0 <= i < n ==> q[i].wakeTime <= now
    {
      n := n + 1;
    }
    woken, rest := q[..n], q[n..];
    SplitAtFirstNotDue(q, now, n);
  }

  /** Cutting a sorted queue where the first waiter that is not due stands
      gives the due waiters and a sorted rest that all wake later. */
  lemma SplitAtFirstNotDue(q: seq<Waiter>, now: int, n: nat)
    requires Sorted(q) && n <= |q|
    requires forall i :: 0 <= i < n ==> q[i].wakeTime <= now
    requires n < |q| ==> q[n].wakeTime > now
    ensures q[..n] + q[n..] == q
    ensures q[..n] == Due(q, now)
    ensures forall i :: 0 <= i < |q[n..]| ==> q[n..][i].wakeTime > now
    ensures Sorted(q[..n]) && Sorted(q[n..])
  {
    assert q == q[..n] + q[n..];
    DueOfSorted(q, now, n);
  }

  /** In a sorted queue whose first n waiters are due and whose waiter at n
      (if any) is not, the due waiters are exactly the first n. */
  lemma {:induction false} DueOfSorted(q: seq<Waiter>, now: int, n: nat)
    requires Sorted(q) && n <= |q|
    requires forall i :: 0 <= i < n ==> q[i].wakeTime <= now
    requires n < |q| ==> q[n].wakeTime > now
    ensures Due(q, now) == q[..n]
    decreases |q|
  {
    if |q| > 0 {
      if n > 0 {
        DueOfSorted(q[1..], now, n - 1);
        assert q[..n] == [q[0]] + q[1..][..n - 1];
      } else {
        assert forall i :: 0 <= i < |q| ==> q[0].wakeTime <= q[i].wakeTime;
        NoneDue(q, now);
      }
    }
  }

  lemma {:induction false} NoneDue(q: seq<Waiter>, now: int)
    requires forall i :: 0 <= i < |q| ==> q[i].wakeTime > now
    ensures Due(q, now) == []
    decreases |q|
  {
    if |q| > 0 {
      NoneDue(q[1..], now);
    }
  }

  /** A thread that waits for x > 0 ticks is among the due waiters at every
      time at least now + x, so the first timer interrupt at such a time
      wakes it. */
  lemma {:induction false} WaiterIsDueOnceTimeHasCome(q: seq<Waiter>, thread: ThreadId, now: int, x: int, t: int)
    requires Sorted(q) && IsInt64(now) && IsInt64(x) && x > 0
    requires IsInt64(now + x) && now + x <= t
    ensures Waiter(thread, now + x) in Due(WaitUntil(q, thread, now, x), t)
  {
    var r := WaitUntil(q, thread, now, x);
    assert Waiter(thread, now + x) in multiset(r);
    DueHoldsEveryDueWaiter(r, t, Waiter(thread, now + x));
  }

  lemma {:induction false} DueHoldsEveryDueWaiter(q: seq<Waiter>, t: int, w: Waiter)
    requires w in q && w.wakeTime <= t
    ensures w in Due(q, t)
    decreases |q|
  {
    if q[0] != w {
      assert w in q[1..];
      DueHoldsEveryDueWaiter(q[1..], t, w);
    }
  }
}

=== FILE: common.dfy ===
/** Types shared by every part of the virtual-memory model: the machine's
    translation entry, the frame-owner record, bytes and pages, and the
    Java integer arithmetic the kernel relies on. */
module Common {

  /** A Java reference that may be null. */
  datatype Option<T> = None | Some(value: T)

  newtype Byte = x: int | 0 <= x < 256

  /** Size of one page in bytes (the simulated MIPS machine's page size). */
  const PageSize: nat := 0x400

  /** The contents of one page. */
  type Page = seq<Byte>

  function ZeroPage(): (p: Page)
    ensures |p| == PageSize
    ensures forall i :: 0 <= i < |p| ==> p[i] == 0
  {
    seq(PageSize, _ => 0)
  }

  /** One virtual-to-physical translation, as the machine stores it in a
      page table or a TLB slot. */
  datatype TranslationEntry = TranslationEntry(
    vpn: int,
    ppn: int,
    valid: bool,
    readOnly: bool,
    used: bool,
    dirty: bool)

  /** A write to a shared entry object, seen through one reference. The
      model holds entries by value, so a reference to an entry equal to
      `from` stands for a reference to the object written, and it now sees
      `to`; any other reference is left alone. */
  function Through(te: TranslationEntry, from: TranslationEntry, to: TranslationEntry): TranslationEntry {
    if te == from then to else te
  }

  /** The same write seen through a table of references that may be null:
      the free pool, or a process's page table. */
  function SlotsThrough(slots: seq<Option<TranslationEntry>>, from: TranslationEntry, to: TranslationEntry): seq<Option<TranslationEntry>> {
    seq(|slots|, i requires 0 <= i < |slots| =>
      if slots[i].Some? then Some(Through(slots[i].value, from, to)) else None)
  }

  /** Owner record of one physical frame: which process holds it, and the
      entry through which it is mapped. */
  datatype PageInfo = PageInfo(pid: int, entry: TranslationEntry)

  const Int32Min: int := -0x8000_0000
  const Int32Max: int := 0x7FFF_FFFF

  predicate IsInt32(x: int) {
    Int32Min <= x <= Int32Max
  }

  /** Java's `/` on int: the quotient is truncated toward zero. */
  function JavaDiv(a: int, b: int): int
    requires b > 0
  {
    if a >= 0 then a / b else -((-a) / b)
  }

  /** Java's `%` on int: the remainder takes the sign of the dividend. */
  function JavaRem(a: int, b: int): (r: int)
    requires b > 0
    ensures a == b * JavaDiv(a, b) + r
  {
    a - b * JavaDiv(a, b)
  }

  /** The remainder of Java division is bounded by the divisor and has the
      sign of the dividend. */
  lemma JavaRemBounds(a: int, b: int)
    requires b > 0
    ensures a >= 0 ==> 0 <= JavaRem(a, b) < b
    ensures a < 0 ==> -b < JavaRem(a, b) <= 0
  {
    if a < 0 {
      var n := -a;
      assert n == b * (n / b) + n % b;
      assert JavaRem(a, b) == -(n % b);
    }
  }
}

=== FILE: page_key.dfy ===
/** The composite key (process id, virtual page number) under which the
    inverted page table and the swap table file their entries, and its
    string form "pid-vpn". The tables of this model are keyed by the
    structural key; the round-trip lemma below is what makes that the same
    as keying them by the string. */
module PageKeys {
  import opened Common

  datatype PageKey = PageKey(pid: int, vpn: int)

  predicate IsDigit(c: char) {
    '0' <= c <= '9'
  }

  predicate AllDigits(s: string) {
    forall i :: 0 <= i < |s| ==> IsDigit(s[i])
  }

  function DigitChar(d: nat): (c: char)
    requires d < 10
    ensures IsDigit(c)
  {
    ('0' as int + d) as char
  }

  function DigitValue(c: char): nat
    requires IsDigit(c)
  {
    c as int - '0' as int
  }

  /** Decimal digits of a non-negative number, most significant first. */
  function NatToString(n: nat): (s: string)
    ensures |s| > 0 && AllDigits(s)
    decreases n
  {
    if n < 10 then [DigitChar(n)] else NatToString(n / 10) + [DigitChar(n % 10)]
  }

  /** Java's decimal rendering of an int. */
  function IntToString(n: int): string {
    if n < 0 then "-" + NatToString(-n) else NatToString(n)
  }

  /** `PageTableKey.toString`: the two decimal fields joined by a dash. */
  function Encode(k: PageKey): string {
    IntToString(k.pid) + "-" + IntToString(k.vpn)
  }

  function ParseNat(s: string): nat
    requires AllDigits(s)
  {
    if |s| == 0 then 0 else ParseNat(s[..|s| - 1]) * 10 + DigitValue(s[|s| - 1])
  }

  /** Position of the first occurrence of `c` in `s`, or -1. */
  function IndexOf(s: string, c: char): (i: int)
    ensures -1 <= i < |s|
    ensures i >= 0 ==> s[i] == c && c !in s[..i]
    ensures i == -1 ==> c !in s
  {
    if |s| == 0 then -1
    else if s[0] == c then 0
    else
      var j := IndexOf(s[1..], c);
      assert s[1..][..if j >= 0 then j else 0] == s[1..1 + (if j >= 0 then j else 0)];
      if j < 0 then -1 else 1 + j
  }

  /** Reads a key back from its string form: the text before the first dash
      is the pid, the rest the vpn, both unsigned decimal numbers. */
  function Decode(s: string): Option<PageKey> {
    var i := IndexOf(s, '-');
    if i <= 0 then None
    else
      var p := s[..i];
      var v := s[i + 1..];
      if AllDigits(p) && |v| > 0 && AllDigits(v) then Some(PageKey(ParseNat(p), ParseNat(v)))
      else None
  }

  lemma {:induction false} ParseNatToString(n: nat)
    ensures ParseNat(NatToString(n)) == n
    decreases n
  {
    var s := NatToString(n);
    if n >= 10 {
      ParseNatToString(n / 10);
      assert s[..|s| - 1] == NatToString(n / 10);
    }
  }

  /** Decoding the string form of a key with non-negative fields gives the
      key back. */
  lemma EncodeRoundTrip(k: PageKey)
    requires k.pid >= 0 && k.vpn >= 0
    ensures Decode(Encode(k)) == Some(k)
  {
    var p := NatToString(k.pid);
    var v := NatToString(k.vpn);
    var s := Encode(k);
    assert s == p + "-" + v;
    assert '-' !in p by {
      forall j | 0 <= j < |p| ensures p[j] != '-' {
        assert IsDigit(p[j]);
      }
    }
    IndexOfAfterPrefix(p, v);
    assert s[..|p|] == p;
    assert s[|p| + 1..] == v;
    ParseNatToString(k.pid);
    ParseNatToString(k.vpn);
  }

  lemma IndexOfAfterPrefix(p: string, v: string)
    requires '-' !in p
    ensures IndexOf(p + "-" + v, '-') == |p|
  {
    var s := p + "-" + v;
    assert s[|p|] == '-';
    assert forall j :: 0 <= j < |p| ==> s[j] == p[j];
  }

  /** The dash-separated encoding is injective over keys with non-negative
      fields, so two such keys never share a table slot. */
  lemma EncodeInjective(k1: PageKey, k2: PageKey)
    requires k1.pid >= 0 && k1.vpn >= 0 && k2.pid >= 0 && k2.vpn >= 0
    ensures Encode(k1) == Encode(k2) <==> k1 == k2
  {
    if Encode(k1) == Encode(k2) {
      EncodeRoundTrip(k1);
      EncodeRoundTrip(k2);
    }
  }
}

=== FILE: swap_manager.dfy ===
/** The swap manager: the victim scan over physical frames, the swap table
    recording evicted pages under their (pid, vpn) key, slot allocation,
    and the swap file, seen as a map from slot number to page bytes (slot n
    is the page-sized block at byte offset n * PageSize of the file). */
module Swap {
  import opened Common
  import opened PageKeys

  datatype SwapStore = SwapStore(
    /** `swapTable`: the entry of every page recorded as swapped out. */
    table: map<PageKey, TranslationEntry>,
    /** `freeSwapPages`, in the order its priority queue polls them. */
    freeSlots: seq<nat>,
    /** The swap file: the page stored in each written slot. */
    file: map<int, Page>,
    /** `swapPointer`: where the next victim scan starts. */
    pointer: int,
    /** The slot each recorded page was written to, and the first slot never
        handed out; kept by the corrected allocation (the source records
        neither, see `RetrieveSwapPage` and `GetFreeSlot`). */
    slotOf: map<PageKey, nat>,
    high: nat)

  /** The swap file after a victim was written out, the frame-owner table
      with the victim's frame cleared, and the fresh entry for that frame. */
  datatype SwappedOut = SwappedOut(store: SwapStore, frames: seq<Option<PageInfo>>, entry: TranslationEntry)

  /** A scan step's result: the store with its pointer moved and the owner
      record of the chosen frame (None where the source returns null). */
  datatype Victim = Victim(store: SwapStore, owner: Option<PageInfo>)

  predicate Ascending(s: seq<nat>) {
    forall i, j :: 0 <= i < j < |s| ==> s[i] < s[j]
  }

  /** The bookkeeping of the corrected allocation: the free queue is
      ordered, every recorded page has its own slot below `high` that is not
      also queued as free, and that slot holds a whole page. */
  predicate Valid(st: SwapStore) {
    && Ascending(st.freeSlots)
    && st.slotOf.Keys == st.table.Keys
    && (forall k :: k in st.slotOf ==> st.slotOf[k] < st.high && st.slotOf[k] !in st.freeSlots)
    && (forall k1, k2 :: k1 in st.slotOf && k2 in st.slotOf && k1 != k2 ==> st.slotOf[k1] != st.slotOf[k2])
    && (forall k :: k in st.slotOf ==> st.slotOf[k] in st.file && |st.file[st.slotOf[k]]| == PageSize)
  }

  /** The frame the victim scan visits at step i: `(i + swapPointer) %
      modulus` with Java's remainder. */
  function ScanFrame(i: int, pointer: int, modulus: int): int
    requires modulus > 0
  {
    JavaRem(i + pointer, modulus)
  }

  /** The first scan step at or after `from` whose frame is not pinned, or
      -1 when every step up to numPhys hits a pinned frame. */
  function FirstUnpinned(numPhys: nat, modulus: int, pointer: int, pinned: set<int>, from: nat): (j: int)
    requires from <= numPhys
    requires from < numPhys ==> modulus > 0
    ensures j == -1 || from <= j < numPhys
    ensures j >= 0 ==> ScanFrame(j, pointer, modulus) !in pinned
    ensures j >= 0 ==> forall l :: from <= l < j ==> ScanFrame(l, pointer, modulus) in pinned
    ensures j == -1 ==> forall l :: from <= l < numPhys ==> ScanFrame(l, pointer, modulus) in pinned
    decreases numPhys - from
  {
    if from == numPhys then -1
    else if ScanFrame(from, pointer, modulus) !in pinned then from
    else FirstUnpinned(numPhys, modulus, pointer, pinned, from + 1)
  }

  /** The source indexes the frame-owner table with the frame the scan
      picks, so that frame must lie inside the table. */
  predicate ScanInRange(st: SwapStore, frames: seq<Option<PageInfo>>, modulus: int, pinned: set<int>)
    requires |frames| > 0 ==> modulus > 0
  {
    var j := FirstUnpinned(|frames|, modulus, st.pointer, pinned, 0);
    j >= 0 ==> 0 <= ScanFrame(j, st.pointer, modulus) < |frames|
  }

  /** `getPhysPageToSwap`: scans numPhysPages frames cyclically from the
      pointer, `modulus` being the scan's modulus (the source uses the page
      size). The first unpinned frame's owner record is returned and the
      pointer moves just past that frame; if every scanned frame is pinned
      the result is null and the pointer stays. */
  function GetPhysPageToSwap(st: SwapStore, frames: seq<Option<PageInfo>>, modulus: int, pinned: set<int>): (r: Victim)
    requires |frames| > 0 ==> modulus > 0
    requires ScanInRange(st, frames, modulus, pinned)
    ensures (forall l :: 0 <= l < |frames| ==> ScanFrame(l, st.pointer, modulus) in pinned) ==>
      r == Victim(st, None)
    ensures forall j ::
      (0 <= j < |frames| && ScanFrame(j, st.pointer, modulus) !in pinned &&
       forall l :: 0 <= l < j ==> ScanFrame(l, st.pointer, modulus) in pinned) ==>
        var ppn := ScanFrame(j, st.pointer, modulus);
        r == Victim(st.(pointer := ppn + 1), frames[ppn])
  {
    var j := FirstUnpinned(|frames|, modulus, st.pointer, pinned, 0);
    if j == -1 then Victim(st, None)
    else
      var ppn := ScanFrame(j, st.pointer, modulus);
      Victim(st.(pointer := ppn + 1), frames[ppn])
  }

  /** With the page size as modulus, as the source has it, the scan leaves
      the frame-owner table: on a two-frame machine with nothing pinned, a
      scan from pointer 1 takes frame 1 and moves the pointer to 2; the next
      scan picks frame 2, past the end of the table. */
  lemma ScanPastFrameTable()
    ensures var frames: seq<Option<PageInfo>> := [None, None];
      var st := SwapStore(map[], [], map[], 1, map[], 0);
      && ScanInRange(st, frames, PageSize, {})
      && GetPhysPageToSwap(st, frames, PageSize, {}).store.pointer == 2
      && !ScanInRange(st.(pointer := 2), frames, PageSize, {})
  {
    SmallRemainder(1);
    SmallRemainder(2);
    assert FirstUnpinned(2, PageSize, 1, {}, 0) == 0;
    assert FirstUnpinned(2, PageSize, 2, {}, 0) == 0;
  }

  lemma SmallRemainder(a: int)
    requires 0 <= a < PageSize
    ensures JavaRem(a, PageSize) == a
  {
    assert JavaDiv(a, PageSize) == 0;
  }

  /** With the number of frames as modulus and a non-negative pointer, the
      scan always picks a frame inside the table, so the owner lookup is
      always in range. */
  lemma VictimFrameInRange(st: SwapStore, frames: seq<Option<PageInfo>>, pinned: set<int>)
    requires |frames| > 0 && st.pointer >= 0
    ensures ScanInRange(st, frames, |frames|, pinned)
    ensures forall j :: 0 <= j < |frames| ==> 0 <= ScanFrame(j, st.pointer, |frames|) < |frames|
  {
    forall j | 0 <= j < |frames|
      ensures 0 <= ScanFrame(j, st.pointer, |frames|) < |frames|
    {
      JavaRemBounds(j + st.pointer, |frames|);
    }
  }

  /** `getFreeSPN` as written: polls the least free slot, but when that
      empties the queue it answers the swap table's size instead. Polling an
      empty queue unboxes null, hence the precondition. */
  function GetFreeSlotAsWritten(freeSlots: seq<nat>, tableSize: nat): (r: (nat, seq<nat>))
    requires |freeSlots| > 0
    ensures r.1 == freeSlots[1..]
    ensures |freeSlots| > 1 ==> r.0 == freeSlots[0]
    ensures |freeSlots| == 1 ==> r.0 == tableSize
  {
    var spn := freeSlots[0];
    var rest := freeSlots[1..];
    if |rest| == 0 then (tableSize, rest) else (spn, rest)
  }

  /** The swap-table size is no free slot: with one page recorded in slot 1
      and slot 0 queued as free, the allocation as written hands out slot 1,
      and the next write would overwrite the recorded page. */
  lemma FreeSlotAsWrittenHitsLiveSlot()
    ensures var a := PageKey(0, 0);
      var st := SwapStore(map[a := TranslationEntry(0, 0, true, false, false, false)], [0],
                          map[1 := ZeroPage()], 0, map[a := 1], 2);
      && Valid(st)
      && GetFreeSlotAsWritten(st.freeSlots, |st.table|).0 == st.slotOf[a]
  {
    var a := PageKey(0, 0);
    var table := map[a := TranslationEntry(0, 0, true, false, false, false)];
    assert |table| == |table.Keys| == |{a}| == 1;
  }

  /** The source numbers a fresh slot by the swap table's size, and never
      fills the free queue. Both fail on a reachable store: after pages A and
      B are swapped out from an empty store (slots 0 and 1) and A is
      released, the queue is still empty, so the poll of line 58 unboxes
      null; and the table has one key, so the fresh slot of line 59 is 1,
      the slot that holds B's page. */
  lemma TableSizeSlotHitsLiveSlot()
    ensures var memory := seq(2 * PageSize, _ => 0 as Byte);
      var a := PageInfo(0, TranslationEntry(0, 0, true, false, false, false));
      var b := PageInfo(0, TranslationEntry(1, 1, true, false, false, false));
      var st0 := SwapStore(map[], [], map[], 0, map[], 0);
      var out1 := SwapIn(st0, [Some(a), Some(b)], memory, a);
      var out2 := SwapIn(out1.store, out1.frames, memory, b);
      var st3 := ReleaseSPN(out2.store, 0, 0).0;
      && Valid(st3)
      && st3.freeSlots == []
      && PageKey(0, 1) in st3.slotOf
      && |st3.table| == st3.slotOf[PageKey(0, 1)]
  {
    var memory := seq(2 * PageSize, _ => 0 as Byte);
    var a := PageInfo(0, TranslationEntry(0, 0, true, false, false, false));
    var b := PageInfo(0, TranslationEntry(1, 1, true, false, false, false));
    var st0 := SwapStore(map[], [], map[], 0, map[], 0);
    var out1 := SwapIn(st0, [Some(a), Some(b)], memory, a);
    assert out1.store.slotOf == map[PageKey(0, 0) := 0] && out1.store.high == 1;
    var out2 := SwapIn(out1.store, out1.frames, memory, b);
    assert out2.store.slotOf == map[PageKey(0, 0) := 0, PageKey(0, 1) := 1];
    var st3 := ReleaseSPN(out2.store, 0, 0).0;
    assert st3.table.Keys == {PageKey(0, 1)};
    assert |st3.table| == |st3.table.Keys| == 1;
  }

  /** The corrected allocation: the least queued free slot when there is
      one, otherwise a slot never handed out before. The slot returned
      never holds a recorded page. */
  function GetFreeSlot(st: SwapStore): (r: (nat, SwapStore))
    ensures |st.freeSlots| > 0 ==> r.0 == st.freeSlots[0] && r.1.freeSlots == st.freeSlots[1..]
    ensures Ascending(st.freeSlots) ==> forall s :: s in st.freeSlots ==> r.0 <= s
    ensures |st.freeSlots| == 0 ==> r.0 == st.high && r.1.freeSlots == []
    ensures r.1.high >= st.high && r.0 < r.1.high
    ensures Valid(st) ==> r.0 !in st.slotOf.Values && r.0 !in r.1.freeSlots
    ensures r.1.table == st.table && r.1.slotOf == st.slotOf && r.1.file == st.file && r.1.pointer == st.pointer
  {
    if |st.freeSlots| > 0 then
      var spn := st.freeSlots[0];
      (spn, st.(freeSlots := st.freeSlots[1..], high := if spn < st.high then st.high else spn + 1))
    else
      (st.high, st.(high := st.high + 1))
  }

  /** The bytes of physical frame ppn. */
  function FrameContent(memory: seq<Byte>, ppn: int): (p: Page)
    requires 0 <= ppn && (ppn + 1) * PageSize <= |memory|
    ensures |p| == PageSize
  {
    memory[ppn * PageSize..(ppn + 1) * PageSize]
  }

  /** `swapIn`: allocates a slot, records the victim's entry under its key
      (pid, vpn), writes the victim frame's bytes to the slot, clears the
      frame's owner record and returns a fresh entry for the same frame:
      valid, writable, unused and clean. */
  function SwapIn(st: SwapStore, frames: seq<Option<PageInfo>>, memory: seq<Byte>, info: PageInfo): (r: SwappedOut)
    requires 0 <= info.entry.ppn < |frames|
    requires (info.entry.ppn + 1) * PageSize <= |memory|
    ensures var key := PageKey(info.pid, info.entry.vpn);
      && key in r.store.table && r.store.table[key] == info.entry
      && (forall k :: k != key ==> (k in r.store.table <==> k in st.table))
      && (forall k :: k in st.table && k != key ==> r.store.table[k] == st.table[k])
    ensures var key := PageKey(info.pid, info.entry.vpn);
      key in r.store.slotOf && r.store.slotOf[key] in r.store.file
      && r.store.file[r.store.slotOf[key]] == FrameContent(memory, info.entry.ppn)
    ensures Valid(st) ==> Valid(r.store)
    ensures |r.frames| == |frames| && r.frames[info.entry.ppn] == None
    ensures forall p :: 0 <= p < |frames| && p != info.entry.ppn ==> r.frames[p] == frames[p]
    ensures r.entry == TranslationEntry(-1, info.entry.ppn, true, false, false, false)
    ensures r.store.pointer == st.pointer
  {
    var (spn, st1) := GetFreeSlot(st);
    var key := PageKey(info.pid, info.entry.vpn);
    var ppn := info.entry.ppn;
    var st2 := st1.(table := st1.table[key := info.entry],
                    slotOf := st1.slotOf[key := spn],
                    file := st1.file[spn := FrameContent(memory, ppn)]);
    SwapInKeepsValid(st, st1, st2, spn, key, FrameContent(memory, ppn));
    SwappedOut(st2, frames[ppn := None], TranslationEntry(-1, ppn, true, false, false, false))
  }

  lemma SwapInKeepsValid(st: SwapStore, st1: SwapStore, st2: SwapStore, spn: nat, key: PageKey, page: Page)
    requires GetFreeSlot(st) == (spn, st1)
    requires |page| == PageSize
    requires st2.table.Keys == st1.table.Keys + {key}
    requires st2 == st1.(table := st2.table, slotOf := st1.slotOf[key := spn], file := st1.file[spn := page])
    ensures Valid(st) ==> Valid(st2)
  {
    if Valid(st) {
      assert Ascending(st1.freeSlots);
      forall k | k in st2.slotOf
        ensures st2.slotOf[k] < st2.high && st2.slotOf[k] !in st2.freeSlots
        ensures st2.slotOf[k] in st2.file && |st2.file[st2.slotOf[k]]| == PageSize
      {
        if k != key {
          assert st2.slotOf[k] == st.slotOf[k];
          assert st.slotOf[k] in st.slotOf.Values;
          assert st.slotOf[k] !in st1.freeSlots;
        }
      }
      forall k1, k2 | k1 in st2.slotOf && k2 in st2.slotOf && k1 != k2
        ensures st2.slotOf[k1] != st2.slotOf[k2]
      {
        if k1 != key && k2 != key {
        } else if k1 == key {
          assert st.slotOf[k2] in st.slotOf.Values;
        } else {
          assert st.slotOf[k1] in st.slotOf.Values;
        }
      }
    }
  }

  /** `releaseSPN`: returns the entry recorded for (pid, vpn), or null, and
      forgets that key only. The slot is not queued as free again. */
  function ReleaseSPN(st: SwapStore, vpn: int, pid: int): (r: (SwapStore, Option<TranslationEntry>))
    ensures var key := PageKey(pid, vpn);
      && (key in st.table ==> r.1 == Some(st.table[key]))
      && (key !in st.table ==> r.1 == None)
      && r.0.table.Keys == st.table.Keys - {key}
      && (forall k :: k in r.0.table ==> r.0.table[k] == st.table[k])
    ensures r.0.freeSlots == st.freeSlots && r.0.file == st.file && r.0.pointer == st.pointer
    ensures Valid(st) ==> Valid(r.0)
  {
    var key := PageKey(pid, vpn);
    var te := if key in st.table then Some(st.table[key]) else None;
    (st.(table := st.table - {key}, slotOf := st.slotOf - {key}), te)
  }

  /** Reading one slot of the swap file; a slot never written reads as
      zeros (the read stops at the end of the file and leaves the buffer as
      allocated). */
  function ReadSlot(file: map<int, Page>, slot: int): Page {
    if slot in file then file[slot] else ZeroPage()
  }

  /** `retrieveSwapPage` as written: reads the slot numbered by the
      recorded entry's vpn, not the slot the page was written to. */
  function RetrieveSwapPageAsWritten(st: SwapStore, vpn: int, pid: int): Page
    requires PageKey(pid, vpn) in st.table
  {
    ReadSlot(st.file, st.table[PageKey(pid, vpn)].vpn)
  }

  /** Swapping out vpn 3 of process 0 from a frame of sevens into an empty
      swap file writes slot 0; reading it back as written reads slot 3,
      which was never written, and yields zeros instead of the sevens. */
  lemma RetrieveAsWrittenReadsWrongSlot()
    ensures var memory := seq(PageSize, _ => 7 as Byte);
      var info := PageInfo(0, TranslationEntry(3, 0, true, false, false, true));
      var st := SwapStore(map[], [], map[], 0, map[], 0);
      var out := SwapIn(st, [Some(info)], memory, info);
      RetrieveSwapPageAsWritten(out.store, 3, 0) != FrameContent(memory, 0)
  {
    var memory := seq(PageSize, _ => 7 as Byte);
    var info := PageInfo(0, TranslationEntry(3, 0, true, false, false, true));
    var st := SwapStore(map[], [], map[], 0, map[], 0);
    var out := SwapIn(st, [Some(info)], memory, info);
    assert out.store.file.Keys == {0};
    assert RetrieveSwapPageAsWritten(out.store, 3, 0) == ZeroPage();
    assert ZeroPage()[0] != FrameContent(memory, 0)[0];
  }

  /** The retrieval as written agrees with the corrected one whenever the
      page happens to sit in the slot numbered by its vpn. */
  lemma RetrieveAsWrittenAgreesWhenSlotIsVpn(st: SwapStore, vpn: int, pid: int)
    requires PageKey(pid, vpn) in st.table && PageKey(pid, vpn) in st.slotOf
    requires st.slotOf[PageKey(pid, vpn)] == st.table[PageKey(pid, vpn)].vpn
    ensures RetrieveSwapPageAsWritten(st, vpn, pid) == RetrieveSwapPage(st, vpn, pid)
  {
  }

  /** The corrected retrieval: reads the slot the page was written to. In a
      consistent store that slot has been written and holds a whole page. */
  function RetrieveSwapPage(st: SwapStore, vpn: int, pid: int): (p: Page)
    requires PageKey(pid, vpn) in st.slotOf
    ensures Valid(st) ==> |p| == PageSize && st.slotOf[PageKey(pid, vpn)] in st.file
  {
    ReadSlot(st.file, st.slotOf[PageKey(pid, vpn)])
  }

  /** Round trip: a page swapped out reads back byte for byte. */
  lemma SwapRoundTrip(st: SwapStore, frames: seq<Option<PageInfo>>, memory: seq<Byte>, info: PageInfo)
    requires 0 <= info.entry.ppn < |frames|
    requires (info.entry.ppn + 1) * PageSize <= |memory|
    ensures RetrieveSwapPage(SwapIn(st, frames, memory, info).store, info.entry.vpn, info.pid)
            == FrameContent(memory, info.entry.ppn)
  {
  }

  /** Swapping out one page never disturbs the bytes of another page
      already in the swap file. */
  lemma SwapInKeepsOtherPages(st: SwapStore, frames: seq<Option<PageInfo>>, memory: seq<Byte>, info: PageInfo, other: PageKey)
    requires Valid(st)
    requires 0 <= info.entry.ppn < |frames|
    requires (info.entry.ppn + 1) * PageSize <= |memory|
    requires other in st.slotOf && other != PageKey(info.pid, info.entry.vpn)
    ensures other in SwapIn(st, frames, memory, info).store.slotOf
    ensures RetrieveSwapPage(SwapIn(st, frames, memory, info).store, other.vpn, other.pid)
            == RetrieveSwapPage(st, other.vpn, other.pid)
  {
    var (spn, _) := GetFreeSlot(st);
    assert st.slotOf[other] in st.slotOf.Values;
    assert spn != st.slotOf[other];
  }

  /** `find`: the entry recorded for a key, or null; the store is not
      changed. */
  function Find(st: SwapStore, key: PageKey): Option<TranslationEntry> {
    if key in st.table then Some(st.table[key]) else None
  }

  /** After a page is swapped out, `find` of its key gives the entry it was
      recorded with, and `find` of every other key is as before. */
  lemma FindAfterSwapIn(st: SwapStore, frames: seq<Option<PageInfo>>, memory: seq<Byte>, info: PageInfo, other: PageKey)
    requires 0 <= info.entry.ppn < |frames|
    requires (info.entry.ppn + 1) * PageSize <= |memory|
    ensures Find(SwapIn(st, frames, memory, info).store, PageKey(info.pid, info.entry.vpn)) == Some(info.entry)
    ensures other != PageKey(info.pid, info.entry.vpn) ==>
      Find(SwapIn(st, frames, memory, info).store, other) == Find(st, other)
  {
  }

  /** `releaseSPN` hands back exactly what `find` reported for the key, and
      afterwards `find` of that key gives null while every other key is as
      before. */
  lemma FindAfterRelease(st: SwapStore, vpn: int, pid: int, other: PageKey)
    ensures ReleaseSPN(st, vpn, pid).1 == Find(st, PageKey(pid, vpn))
    ensures Find(ReleaseSPN(st, vpn, pid).0, PageKey(pid, vpn)) == None
    ensures other != PageKey(pid, vpn) ==> Find(ReleaseSPN(st, vpn, pid).0, other) == Find(st, other)
  {
  }
}

=== FILE: tlb_manager.dfy ===
/** The manager of the machine's translation cache: a fixed number of slots,
    each holding a copy of a translation entry. Reading and writing a slot
    copies the entry, so the slots are plain values here. */
module Tlb {
  import opened Common
  import opened PageKeys

  type Slots = seq<TranslationEntry>

  /** The slot array after an install, and the slot that was written. */
  datatype Install = Install(slots: Slots, index: int)

  /** The slot array after a lookup, and the entry the lookup returned
      (None where the source returns null). */
  datatype Lookup = Lookup(slots: Slots, entry: Option<TranslationEntry>)

  /** Index of the first invalid slot at or after `from`, or -1. */
  function FirstInvalid(tlb: Slots, from: nat): (i: int)
    requires from <= |tlb|
    ensures i == -1 || from <= i < |tlb|
    ensures i >= 0 ==> !tlb[i].valid && forall j :: from <= j < i ==> tlb[j].valid
    ensures i == -1 ==> forall j :: from <= j < |tlb| ==> tlb[j].valid
    decreases |tlb| - from
  {
    if from == |tlb| then -1
    else if !tlb[from].valid then from
    else FirstInvalid(tlb, from + 1)
  }

  /** `add`: the entry goes into the lowest invalid slot; when every slot is
      valid it goes into the slot `randomIndex`, the value `Lib.random`
      draws. Exactly one slot changes. */
  function Add(tlb: Slots, entry: TranslationEntry, randomIndex: int): (r: Install)
    requires |tlb| > 0
    requires 0 <= randomIndex < |tlb|
    ensures 0 <= r.index < |tlb|
    ensures (exists j :: 0 <= j < |tlb| && !tlb[j].valid) ==>
      !tlb[r.index].valid && forall j :: 0 <= j < r.index ==> tlb[j].valid
    ensures (forall j :: 0 <= j < |tlb| ==> tlb[j].valid) ==> r.index == randomIndex
    ensures |r.slots| == |tlb| && r.slots[r.index] == entry
    ensures forall j :: 0 <= j < |tlb| && j != r.index ==> r.slots[j] == tlb[j]
  {
    var free := FirstInvalid(tlb, 0);
    var index := if free == -1 then randomIndex else free;
    Install(tlb[index := entry], index)
  }

  /** `invalid(i)`: clears the valid bit of slot i only. */
  function Invalidate(tlb: Slots, i: int): (r: Slots)
    requires 0 <= i < |tlb|
    ensures |r| == |tlb|
    ensures !r[i].valid && r[i].(valid := tlb[i].valid) == tlb[i]
    ensures forall j :: 0 <= j < |tlb| && j != i ==> r[j] == tlb[j]
  {
    tlb[i := tlb[i].(valid := false)]
  }

  /** A slot answers a lookup of `vpn` when it is valid and maps `vpn`. */
  predicate Matches(te: TranslationEntry, vpn: int) {
    te.valid && te.vpn == vpn
  }

  /** The entry after a hit: used is set and a write makes it dirty. */
  function Touch(te: TranslationEntry, isWrite: bool): TranslationEntry {
    te.(dirty := te.dirty || isWrite, used := true)
  }

  /** Index of the first slot at or after `from` that answers `vpn`, or -1. */
  function FirstMatch(tlb: Slots, vpn: int, from: nat): (i: int)
    requires from <= |tlb|
    ensures i == -1 || from <= i < |tlb|
    ensures i >= 0 ==> Matches(tlb[i], vpn) && forall j :: from <= j < i ==> !Matches(tlb[j], vpn)
    ensures i == -1 ==> forall j :: from <= j < |tlb| ==> !Matches(tlb[j], vpn)
    decreases |tlb| - from
  {
    if from == |tlb| then -1
    else if Matches(tlb[from], vpn) then from
    else FirstMatch(tlb, vpn, from + 1)
  }

  /** `find`: the first valid slot mapping `vpn` decides the outcome. A
      write to a read-only page returns null and changes nothing; any other
      hit sets the used bit, ORs the write into the dirty bit, writes the
      slot back and returns it. No slot matching means null and no change. */
  function Find(tlb: Slots, vpn: int, isWrite: bool): (r: Lookup)
    ensures (forall i :: 0 <= i < |tlb| ==> !Matches(tlb[i], vpn)) ==> r == Lookup(tlb, None)
    ensures var i := FirstMatch(tlb, vpn, 0);
      i >= 0 ==>
        if tlb[i].readOnly && isWrite then r == Lookup(tlb, None)
        else r.entry == Some(Touch(tlb[i], isWrite)) && r.slots == tlb[i := Touch(tlb[i], isWrite)]
    ensures |r.slots| == |tlb|
    ensures forall i :: 0 <= i < |tlb| ==> (tlb[i].dirty ==> r.slots[i].dirty)
  {
    var i := FirstMatch(tlb, vpn, 0);
    if i == -1 || (tlb[i].readOnly && isWrite) then Lookup(tlb, None)
    else Lookup(tlb[i := Touch(tlb[i], isWrite)], Some(Touch(tlb[i], isWrite)))
  }

  /** A lookup finds what was just installed, with the same frame, as long
      as no other valid slot maps the same page and the access is allowed. */
  lemma AddThenFindHits(tlb: Slots, entry: TranslationEntry, randomIndex: int, isWrite: bool)
    requires |tlb| > 0 && 0 <= randomIndex < |tlb|
    requires entry.valid && !(entry.readOnly && isWrite)
    requires forall j :: 0 <= j < |tlb| && tlb[j].valid ==> tlb[j].vpn != entry.vpn
    ensures Find(Add(tlb, entry, randomIndex).slots, entry.vpn, isWrite).entry == Some(Touch(entry, isWrite))
    ensures Find(Add(tlb, entry, randomIndex).slots, entry.vpn, isWrite).entry.value.ppn == entry.ppn
  {
    var ins := Add(tlb, entry, randomIndex);
    assert Matches(ins.slots[ins.index], entry.vpn);
    forall j | 0 <= j < |tlb| && j != ins.index
      ensures !Matches(ins.slots[j], entry.vpn)
    {
      assert ins.slots[j] == tlb[j];
    }
  }

  /** Once the only slot mapping a page is invalidated, lookups of that page
      miss. */
  lemma InvalidateHidesSlot(tlb: Slots, i: int, isWrite: bool)
    requires 0 <= i < |tlb|
    requires forall j :: 0 <= j < |tlb| && j != i ==> !Matches(tlb[j], tlb[i].vpn)
    ensures Find(Invalidate(tlb, i), tlb[i].vpn, isWrite) == Lookup(Invalidate(tlb, i), None)
  {
    var r := Invalidate(tlb, i);
    forall j | 0 <= j < |r|
      ensures !Matches(r[j], tlb[i].vpn)
    {
      if j != i {
        assert r[j] == tlb[j];
      }
    }
  }

  /** Slot `i` is a valid cached copy of the directory entry filed under
      key `k` for process `pid`. */
  predicate Feeds(tlb: Slots, i: int, pid: int, k: PageKey)
    requires 0 <= i < |tlb|
  {
    tlb[i].valid && k == PageKey(pid, tlb[i].vpn)
  }

  /** Some valid slot among the first n caches `k` and is dirty. */
  predicate DirtyIn(tlb: Slots, n: int, pid: int, k: PageKey)
    requires 0 <= n <= |tlb|
  {
    exists i :: 0 <= i < n && Feeds(tlb, i, pid, k) && tlb[i].dirty
  }

  /** Some valid slot among the first n caches `k` and is read-only. */
  predicate ReadOnlyIn(tlb: Slots, n: int, pid: int, k: PageKey)
    requires 0 <= n <= |tlb|
  {
    exists i :: 0 <= i < n && Feeds(tlb, i, pid, k) && tlb[i].readOnly
  }

  /** Directory entry `te` with the bits of the first n slots folded in. */
  function Folded(tlb: Slots, n: int, pid: int, k: PageKey, te: TranslationEntry): TranslationEntry
    requires 0 <= n <= |tlb|
  {
    te.(dirty := te.dirty || DirtyIn(tlb, n, pid, k),
        readOnly := te.readOnly || ReadOnlyIn(tlb, n, pid, k))
  }

  /** `updateGlobalInvertedPageTable(pid)`: for every valid slot whose page
      `(pid, vpn)` is in the inverted table, ORs the slot's dirty and
      read-only bits into the table's entry. No bit is ever cleared, keys of
      other processes and absent keys are untouched, and no key is added. */
  method UpdateInvertedTable(tlb: Slots, pid: int, table: map<PageKey, TranslationEntry>)
    returns (r: map<PageKey, TranslationEntry>)
    ensures r.Keys == table.Keys
    ensures forall k :: k in table ==> r[k] == Folded(tlb, |tlb|, pid, k, table[k])
    ensures forall k :: k in table && k.pid != pid ==> r[k] == table[k]
    ensures forall k :: k in table ==>
      (table[k].dirty ==> r[k].dirty) && (table[k].readOnly ==> r[k].readOnly)
  {
    r := table;
    var i := 0;
    while i < |tlb|
      invariant 0 <= i <= |tlb|
      invariant r.Keys == table.Keys
      invariant forall k :: k in table ==> r[k] == Folded(tlb, i, pid, k, table[k])
    {
      var r' := FoldSlot(r, tlb[i], pid);
      FoldStep(tlb, i, pid, table, r, r');
      r := r';
      i := i + 1;
    }
    FoldedKeepsBits(tlb, pid, table, r);
  }

  /** A fully folded table only sets bits, and only on the process's keys. */
  lemma FoldedKeepsBits(tlb: Slots, pid: int, table: map<PageKey, TranslationEntry>,
                        r: map<PageKey, TranslationEntry>)
    requires r.Keys == table.Keys
    requires forall k :: k in table ==> r[k] == Folded(tlb, |tlb|, pid, k, table[k])
    ensures forall k :: k in table && k.pid != pid ==> r[k] == table[k]
    ensures forall k :: k in table ==>
      (table[k].dirty ==> r[k].dirty) && (table[k].readOnly ==> r[k].readOnly)
  {
  }

  /** One step of the update: a valid slot whose page is in the table ORs
      its dirty and read-only bits into that page's entry. */
  function FoldSlot(r: map<PageKey, TranslationEntry>, entry: TranslationEntry, pid: int)
    : map<PageKey, TranslationEntry>
  {
    var key := PageKey(pid, entry.vpn);
    if entry.valid && key in r then
      r[key := r[key].(dirty := entry.dirty || r[key].dirty,
                       readOnly := r[key].readOnly || entry.readOnly)]
    else r
  }

  /** Folding slot i into a map that holds the first i slots' bits gives
      a map that holds the first i+1 slots' bits. */
  lemma FoldStep(tlb: Slots, i: int, pid: int, table: map<PageKey, TranslationEntry>,
                 r: map<PageKey, TranslationEntry>, r': map<PageKey, TranslationEntry>)
    requires 0 <= i < |tlb|
    requires r.Keys == table.Keys
    requires forall k :: k in table ==> r[k] == Folded(tlb, i, pid, k, table[k])
    requires r' == FoldSlot(r, tlb[i], pid)
    ensures r'.Keys == table.Keys
    ensures forall k :: k in table ==> r'[k] == Folded(tlb, i + 1, pid, k, table[k])
  {
  }
}

=== FILE: user_kernel.dfy ===
/** The kernel's list of free physical frames (a FIFO list of translation
    entries, one per free frame) and the address arithmetic helpers of the
    user kernel. */
module FreePool {
  import opened Common

  /** The free list. An element is None where the source holds a null
      reference: `releasePages` appends the null slots of a page table. */
  type Pool = seq<Option<TranslationEntry>>

  /** An entry taken from the head of the pool, and what is left. */
  datatype Acquired = Acquired(entry: TranslationEntry, pool: Pool)

  /** The physical frame numbers the pool holds, with multiplicity. */
  function Frames(pool: Pool): multiset<int> {
    if |pool| == 0 then multiset{}
    else (if pool[0].Some? then multiset{pool[0].value.ppn} else multiset{}) + Frames(pool[1..])
  }

  lemma {:induction false} FramesAppend(a: Pool, b: Pool)
    ensures Frames(a + b) == Frames(a) + Frames(b)
    decreases |a|
  {
    if |a| > 0 {
      assert (a + b)[1..] == a[1..] + b;
      FramesAppend(a[1..], b);
    } else {
      assert a + b == b;
    }
  }

  /** A write through a shared entry object that keeps its frame number
      keeps the pool's frames. */
  lemma {:induction false} ThroughKeepsFrames(pool: Pool, from: TranslationEntry, to: TranslationEntry)
    requires from.ppn == to.ppn
    ensures Frames(SlotsThrough(pool, from, to)) == Frames(pool)
    decreases |pool|
  {
    if |pool| > 0 {
      assert SlotsThrough(pool, from, to)[1..] == SlotsThrough(pool[1..], from, to);
      ThroughKeepsFrames(pool[1..], from, to);
    }
  }

  /** Two pools with the same slots, each present entry the same up to its
      valid bit. */
  predicate SameUpToValid(x: Pool, y: Pool) {
    && |x| == |y|
    && forall j :: 0 <= j < |x| ==>
         x[j].Some? == y[j].Some? && (x[j].Some? ==> x[j].value.(valid := y[j].value.valid) == y[j].value)
  }

  /** A write through a shared entry that sets only its valid bit changes
      nothing in the pool but valid bits; two such writes still do not. */
  lemma ValidWriteKeepsPool(pool: Pool, from: TranslationEntry, v: bool, later: Pool)
    requires SameUpToValid(later, SlotsThrough(pool, from, from.(valid := v)))
    ensures SameUpToValid(SlotsThrough(pool, from, from.(valid := v)), pool)
    ensures SameUpToValid(later, pool)
  {
  }

  /** The free list built when the kernel starts: one invalid entry per
      physical frame, frames 0 .. numPhysPages-1 in order. */
  method Initialize(numPhysPages: nat) returns (pool: Pool)
    ensures |pool| == numPhysPages
    ensures forall i :: 0 <= i < |pool| ==>
      pool[i].Some? && pool[i].value.ppn == i && !pool[i].value.valid
  {
    pool := [];
    var i := 0;
    while i < numPhysPages
      invariant 0 <= i <= numPhysPages
      invariant |pool| == i
      invariant forall j :: 0 <= j < i ==>
        pool[j].Some? && pool[j].value.ppn == j && !pool[j].value.valid
    {
      pool := pool + [Some(TranslationEntry(0, i, false, false, false, false))];
      i := i + 1;
    }
  }

  /** A pool of the shape `Initialize` builds holds every frame of the
      machine exactly once and nothing else. */
  lemma {:induction false} InitialPoolHoldsEachFrameOnce(pool: Pool, n: nat)
    requires |pool| == n
    requires forall i :: 0 <= i < |pool| ==> pool[i].Some? && pool[i].value.ppn == i
    ensures forall f :: 0 <= f < n ==> Frames(pool)[f] == 1
    ensures forall f :: f < 0 || f >= n ==> Frames(pool)[f] == 0
    decreases n
  {
    if n > 0 {
      var init := pool[..n - 1];
      assert pool == init + [pool[n - 1]];
      InitialPoolHoldsEachFrameOnce(init, n - 1);
      FramesAppend(init, [pool[n - 1]]);
      assert Frames([pool[n - 1]]) == multiset{n - 1} by {
        assert [pool[n - 1]][1..] == [];
      }
    }
  }

  /** `acquirePage`: takes the head of the pool and marks it valid. The
      source dereferences the polled element, so the head must be present. */
  function AcquirePage(pool: Pool): (r: Acquired)
    requires |pool| > 0 && pool[0].Some?
    ensures r.entry.valid
    ensures r.entry == pool[0].value.(valid := true)
    ensures |r.pool| == |pool| - 1 && r.pool == pool[1..]
    ensures Frames(pool) == Frames(r.pool) + multiset{r.entry.ppn}
  {
    Acquired(pool[0].value.(valid := true), pool[1..])
  }

  /** Present slots holding the given entries, one per entry. */
  function AsSlots(entries: seq<TranslationEntry>): (r: Pool)
    ensures |r| == |entries|
    ensures forall i :: 0 <= i < |r| ==> r[i] == Some(entries[i])
  {
    seq(|entries|, i requires 0 <= i < |entries| => Some(entries[i]))
  }

  /** `acquirePages(n)`: the first n pool entries, all marked valid, or
      None (and an untouched pool) when the pool is empty or shorter than n.
      A negative n reaches the array allocation only when the pool is not
      empty, and every polled element is dereferenced. The frames handed
      out and the frames left behind are together the frames of the pool. */
  function AcquirePages(pool: Pool, n: int): (r: (Option<seq<TranslationEntry>>, Pool))
    requires n >= 0 || |pool| == 0
    requires |pool| > 0 && |pool| >= n ==> forall i :: 0 <= i < n ==> pool[i].Some?
    ensures (|pool| == 0 || |pool| < n) ==> r.0 == None && r.1 == pool
    ensures |pool| > 0 && |pool| >= n ==>
      && r.0.Some?
      && |r.0.value| == n
      && (forall i :: 0 <= i < n ==> r.0.value[i] == pool[i].value.(valid := true))
      && r.1 == pool[n..]
    ensures r.0.Some? ==> Frames(pool) == Frames(AsSlots(r.0.value)) + Frames(r.1)
  {
    if |pool| > 0 && |pool| >= n then
      var taken := seq(n, i requires 0 <= i < n => pool[i].value.(valid := true));
      assert pool == pool[..n] + pool[n..];
      FramesAppend(pool[..n], pool[n..]);
      SameFrames(pool[..n], AsSlots(taken));
      (Some(taken), pool[n..])
    else
      (None, pool)
  }

  /** `releasePage`: the entry, marked invalid, goes to the tail. */
  function ReleasePage(pool: Pool, te: TranslationEntry): (r: Pool)
    ensures |r| == |pool| + 1
    ensures r[..|pool|] == pool
    ensures r[|pool|] == Some(te.(valid := false))
    ensures Frames(r) == Frames(pool) + multiset{te.ppn}
  {
    FramesAppend(pool, [Some(te.(valid := false))]);
    assert [Some(te.(valid := false))][1..] == [];
    pool + [Some(te.(valid := false))]
  }

  function Invalidate(slot: Option<TranslationEntry>): Option<TranslationEntry> {
    if slot.Some? then Some(slot.value.(valid := false)) else None
  }

  /** The slots of a page table as `releasePages` appends them: present
      entries marked invalid, null slots kept. The frames are the table's. */
  function InvalidateAll(slots: seq<Option<TranslationEntry>>): (r: Pool)
    ensures |r| == |slots|
    ensures forall j :: 0 <= j < |slots| ==> r[j] == Invalidate(slots[j])
    ensures Frames(r) == Frames(slots)
  {
    if |slots| == 0 then []
    else
      var rest := InvalidateAll(slots[1..]);
      assert ([Invalidate(slots[0])] + rest)[1..] == rest;
      [Invalidate(slots[0])] + rest
  }

  /** Invalidating one more slot of a table appends that slot, invalidated. */
  lemma InvalidateAllGrows(slots: seq<Option<TranslationEntry>>, i: nat)
    requires i < |slots|
    ensures InvalidateAll(slots[..i + 1]) == InvalidateAll(slots[..i]) + [Invalidate(slots[i])]
  {
  }


  /** `releasePages`: appends every slot of a page table, in order, marking
      the present ones invalid; null slots are appended as they are. */
  method ReleasePages(pool: Pool, pageTable: seq<Option<TranslationEntry>>) returns (r: Pool)
    ensures r == pool + InvalidateAll(pageTable)
    ensures Frames(r) == Frames(pool) + Frames(pageTable)
  {
    r := pool;
    var i := 0;
    while i < |pageTable|
      invariant 0 <= i <= |pageTable|
      invariant r == pool + InvalidateAll(pageTable[..i])
    {
      InvalidateAllGrows(pageTable, i);
      r := r + [Invalidate(pageTable[i])];
      i := i + 1;
    }
    assert pageTable[..i] == pageTable;
    FramesAppend(pool, InvalidateAll(pageTable));
  }

  /** `getAvailablePages`: the number of entries in the pool. */
  function AvailablePages(pool: Pool): nat {
    |pool|
  }

  /** The available count follows the pool operations: a granted bulk
      acquire of n lowers it by n, a refused one leaves it, a release raises
      it by one, and releasing a page table raises it by the table's length,
      null slots included. */
  lemma AvailablePagesCount(pool: Pool, n: int, te: TranslationEntry, pageTable: seq<Option<TranslationEntry>>)
    requires n >= 0 || |pool| == 0
    requires |pool| > 0 && |pool| >= n ==> forall i :: 0 <= i < n ==> pool[i].Some?
    ensures AcquirePages(pool, n).0.Some? ==> AvailablePages(AcquirePages(pool, n).1) == AvailablePages(pool) - n
    ensures AcquirePages(pool, n).0.None? ==> AvailablePages(AcquirePages(pool, n).1) == AvailablePages(pool)
    ensures AvailablePages(ReleasePage(pool, te)) == AvailablePages(pool) + 1
    ensures AvailablePages(pool + InvalidateAll(pageTable)) == AvailablePages(pool) + |pageTable|
  {
  }

  /** Taking the head frame and giving it back leaves as many pages
      available as before and the same frames in the pool; the frame moves
      from the head to the tail, so frames are reused in FIFO order. */
  lemma AcquireThenReleaseConservesFrames(pool: Pool)
    requires |pool| > 0 && pool[0].Some?
    ensures var got := AcquirePage(pool);
      var back := ReleasePage(got.pool, got.entry);
      && AvailablePages(back) == AvailablePages(pool)
      && Frames(back) == Frames(pool)
      && back == pool[1..] + [Some(pool[0].value.(valid := false))]
  {
  }

  lemma {:induction false} SameFrames(a: Pool, b: Pool)
    requires |a| == |b|
    requires forall i :: 0 <= i < |a| ==> a[i].Some? && b[i].Some? && a[i].value.ppn == b[i].value.ppn
    ensures Frames(a) == Frames(b)
    decreases |a|
  {
    if |a| > 0 {
      SameFrames(a[1..], b[1..]);
    }
  }

  /** `vpn(vaddr)`: the page number of an address (Java division). */
  function Vpn(vaddr: int): (pn: int)
    ensures vaddr >= 0 ==> 0 <= pn && pn * PageSize <= vaddr < (pn + 1) * PageSize
    ensures vaddr < 0 ==> pn <= 0 && (pn - 1) * PageSize < vaddr <= pn * PageSize
  {
    JavaDiv(vaddr, PageSize)
  }

  /** `offset(vaddr)`: the offset of an address within its page (Java
      remainder). */
  function Offset(vaddr: int): (off: int)
    ensures vaddr >= 0 ==> 0 <= off < PageSize
    ensures vaddr < 0 ==> 0 < off + PageSize && off <= 0
  {
    JavaRemBounds(vaddr, PageSize);
    JavaRem(vaddr, PageSize)
  }

  /** `addr(pn, offset)`: the address of an offset within a page. */
  function Addr(pn: int, offset: int): (a: int)
    ensures 0 <= offset < PageSize ==> pn * PageSize <= a < (pn + 1) * PageSize
  {
    pn * PageSize + offset
  }

  /** Splitting an address into page and offset and joining them again gives
      the address back; for a non-negative address the offset lies within
      the page. */
  lemma AddressSplitJoin(vaddr: int)
    ensures Addr(Vpn(vaddr), Offset(vaddr)) == vaddr
    ensures vaddr >= 0 ==> 0 <= Offset(vaddr) < PageSize && Vpn(vaddr) >= 0
  {
    JavaRemBounds(vaddr, PageSize);
  }

  /** Joining a page number and an in-page offset and splitting the result
      gives both back. */
  lemma AddressJoinSplit(pn: nat, offset: int)
    requires 0 <= offset < PageSize
    ensures Vpn(Addr(pn, offset)) == pn
    ensures Offset(Addr(pn, offset)) == offset
  {
    var a := Addr(pn, offset);
    assert a / PageSize == pn by {
      assert a == pn * PageSize + offset;
    }
  }
}

=== FILE: user_process.dfy ===
/** The per-process rules of a user process: which virtual addresses are
    valid, the scan for a null-terminated string, the guards and bit marking
    at the entry of the virtual-memory copy routines, the checks and the
    address-space layout of program loading, and the 16-slot file table. */
module Process {
  import opened Common
  import FreePool

  /** Pages reserved for the user stack. */
  const StackPages: nat := 8

  /** Slots in a process's file table. */
  const MaxOpenFiles: nat := 16

  /** Number of distinct page numbers of a 32-bit address space. */
  const AddressPages: nat := 0x1_0000_0000 / PageSize

  /** `Processor.pageFromAddress`: the page of the address, read as an
      unsigned 32-bit number. */
  function PageFromAddress(address: int): (p: nat)
    requires IsInt32(address)
    ensures p < AddressPages
    ensures address >= 0 ==> p == FreePool.Vpn(address)
    ensures address < 0 ==> p >= AddressPages / 2
  {
    (address % 0x1_0000_0000) / PageSize
  }

  /** `validAddress`: the address lies on one of the process's pages. */
  predicate ValidAddress(address: int, numPages: int)
    requires IsInt32(address)
    ensures address >= 0 ==> (ValidAddress(address, numPages) <==> 0 <= FreePool.Vpn(address) < numPages)
    ensures address < 0 && numPages <= AddressPages / 2 ==> !ValidAddress(address, numPages)
  {
    0 <= PageFromAddress(address) < numPages
  }

  /** For any address space that fits in half the 32-bit range, an address
      is valid exactly when it is one of the numPages * PageSize bytes from
      address 0; in particular no negative address is valid. */
  lemma ValidAddressIsInRange(address: int, numPages: int)
    requires IsInt32(address)
    requires numPages <= AddressPages / 2
    ensures ValidAddress(address, numPages) <==> 0 <= address < numPages * PageSize
  {
    if address >= 0 {
      FreePool.AddressSplitJoin(address);
    }
  }

  // ---------------------------------------------------------------------
  // readVirtualMemoryString

  /** Index of the first zero byte among the first n bytes, or -1. */
  function FirstZero(bytes: seq<Byte>, n: nat): (i: int)
    requires n <= |bytes|
    ensures i == -1 || 0 <= i < n
    ensures i >= 0 ==> bytes[i] == 0 && forall j :: 0 <= j < i ==> bytes[j] != 0
    ensures i == -1 ==> forall j :: 0 <= j < n ==> bytes[j] != 0
  {
    if n == 0 then -1
    else if FirstZero(bytes, n - 1) >= 0 then FirstZero(bytes, n - 1)
    else if bytes[n - 1] == 0 then n - 1
    else -1
  }

  /** `readVirtualMemoryString`: `bytes` is the buffer of maxLength + 1
      bytes and `bytesRead` what the read into it reported. The string is
      the bytes before the first zero among the bytes read; there is none
      when no zero was read (a failed read reports -1 and reads none). */
  method ReadVirtualMemoryString(bytes: seq<Byte>, bytesRead: int, maxLength: int) returns (r: Option<seq<Byte>>)
    requires maxLength >= 0 && |bytes| == maxLength + 1
    requires bytesRead <= |bytes|
    ensures r.None? <==> forall j :: 0 <= j < bytesRead ==> bytes[j] != 0
    ensures r.Some? ==>
      && |r.value| < bytesRead
      && bytes[|r.value|] == 0
      && r.value == bytes[..|r.value|]
      && (forall j :: 0 <= j < |r.value| ==> r.value[j] != 0)
    ensures bytesRead >= 0 ==>
      r == if FirstZero(bytes, bytesRead) >= 0 then Some(bytes[..FirstZero(bytes, bytesRead)]) else None
  {
    var length := 0;
    while length < bytesRead
      invariant 0 <= length <= |bytes|
      invariant bytesRead >= 0 ==> length <= bytesRead
      invariant forall j :: 0 <= j < length ==> bytes[j] != 0
    {
      if bytes[length] == 0 {
        return Some(bytes[..length]);
      }
      length := length + 1;
    }
    return None;
  }

  // ---------------------------------------------------------------------
  // Entry of readVirtualMemory / writeVirtualMemory

  /** Java's int addition result: the mathematical sum wrapped into 32 bits. */
  function Wrap32(x: int): (r: int)
    ensures IsInt32(r)
    ensures IsInt32(x) ==> r == x
  {
    (x - Int32Min) % 0x1_0000_0000 + Int32Min
  }

  /** The last page the copy loop visits: `(vaddr + length) / pageSize` in
      32-bit arithmetic. */
  function LastPage(vaddr: int, length: int): int {
    JavaDiv(Wrap32(vaddr + length), PageSize)
  }

  /** What the entry of a copy routine does: reject the request (-1) or
      mark the pages the copy loop visits. */
  datatype Access = Rejected | Marked(pageTable: seq<Option<TranslationEntry>>)

  /** Every page from the first to the last visited page is in the table and
      present: the copy loop dereferences each of them. */
  predicate PagesPresent(pageTable: seq<Option<TranslationEntry>>, first: int, last: int) {
    && (first <= last ==> 0 <= first && last < |pageTable|)
    && forall i :: first <= i <= last ==> pageTable[i].Some?
  }

  /** The entry mark a copy leaves on a page: used, and dirty for a write. */
  function Mark(te: TranslationEntry, isWrite: bool): (r: TranslationEntry)
    ensures r.used && (te.dirty || isWrite <==> r.dirty)
    ensures r.(used := te.used, dirty := te.dirty) == te
  {
    te.(used := true, dirty := te.dirty || isWrite)
  }

  /** The entry guard and page marking of `readVirtualMemory` (isWrite
      false) and `writeVirtualMemory` (isWrite true): an invalid start
      address is rejected and nothing is touched; otherwise every page from
      the start address's page to the page of start + length is marked used,
      and also dirty for a write. The byte copy itself is not modelled. */
  function AccessPages(pageTable: seq<Option<TranslationEntry>>, numPages: int, vaddr: int, length: int, isWrite: bool): (r: Access)
    requires IsInt32(vaddr) && IsInt32(length) && length >= 0
    requires ValidAddress(vaddr, numPages) ==>
      PagesPresent(pageTable, FreePool.Vpn(vaddr), LastPage(vaddr, length))
    ensures !ValidAddress(vaddr, numPages) <==> r == Rejected
    ensures r.Marked? ==>
      && |r.pageTable| == |pageTable|
      && (forall i :: FreePool.Vpn(vaddr) <= i <= LastPage(vaddr, length) ==>
            0 <= i < |pageTable| && pageTable[i].Some? &&
            r.pageTable[i] == Some(Mark(pageTable[i].value, isWrite)))
      && (forall i :: 0 <= i < |pageTable| && !(FreePool.Vpn(vaddr) <= i <= LastPage(vaddr, length)) ==>
            r.pageTable[i] == pageTable[i])
  {
    if !ValidAddress(vaddr, numPages) then Rejected
    else
      var first := FreePool.Vpn(vaddr);
      var last := LastPage(vaddr, length);
      var marked := seq(|pageTable|, i requires 0 <= i < |pageTable| =>
        if first <= i <= last then Some(Mark(pageTable[i].value, isWrite)) else pageTable[i]);
      assert forall i :: first <= i <= last ==> 0 <= i < |pageTable| && marked[i] == Some(Mark(pageTable[i].value, isWrite));
      Marked(marked)
  }

  /** Marking never clears a bit, and marking the same pages again changes
      nothing: the copy routines only ever raise used and dirty. */
  lemma MarkingIsMonotoneAndIdempotent(pageTable: seq<Option<TranslationEntry>>, numPages: int, vaddr: int, length: int, isWrite: bool)
    requires IsInt32(vaddr) && IsInt32(length) && length >= 0
    requires ValidAddress(vaddr, numPages)
    requires PagesPresent(pageTable, FreePool.Vpn(vaddr), LastPage(vaddr, length))
    ensures var once := AccessPages(pageTable, numPages, vaddr, length, isWrite).pageTable;
      && (forall i :: 0 <= i < |pageTable| && pageTable[i].Some? ==>
            once[i].Some? &&
            (pageTable[i].value.used ==> once[i].value.used) &&
            (pageTable[i].value.dirty ==> once[i].value.dirty))
      && PagesPresent(once, FreePool.Vpn(vaddr), LastPage(vaddr, length))
      && AccessPages(once, numPages, vaddr, length, isWrite).pageTable == once
  {
    var once := AccessPages(pageTable, numPages, vaddr, length, isWrite).pageTable;
    assert PagesPresent(once, FreePool.Vpn(vaddr), LastPage(vaddr, length));
    var twice := AccessPages(once, numPages, vaddr, length, isWrite).pageTable;
    assert forall i :: 0 <= i < |once| ==> twice[i] == once[i];
  }

  // ---------------------------------------------------------------------
  // load: executable checks and address-space layout

  /** A loadable section of the executable: its first virtual page, its
      length in pages and whether it is read-only. */
  datatype Section = Section(firstVpn: int, length: int, readOnly: bool)

  /** Total pages of the sections. */
  function SectionPages(sections: seq<Section>): int {
    if |sections| == 0 then 0 else SectionPages(sections[..|sections| - 1]) + sections[|sections| - 1].length
  }

  /** The section check of `load`, starting with `start` pages counted: each
      section must begin where the previous one ended; the result is the
      page count after the last section, or None for a fragmented
      executable. */
  function CountContiguous(sections: seq<Section>, start: int): Option<int> {
    if |sections| == 0 then Some(start)
    else if sections[0].firstVpn != start then None
    else CountContiguous(sections[1..], start + sections[0].length)
  }

  /** Sections laid out from page `start`: each starts right after the
      pages of all sections before it. */
  predicate ContiguousFrom(sections: seq<Section>, start: int) {
    forall i :: 0 <= i < |sections| ==> sections[i].firstVpn == start + SectionPages(sections[..i])
  }

  /** Sections are contiguous from page 0. */
  predicate Contiguous(sections: seq<Section>) {
    ContiguousFrom(sections, 0)
  }

  lemma {:induction false} SectionPagesCons(s: Section, rest: seq<Section>)
    ensures SectionPages([s] + rest) == s.length + SectionPages(rest)
    decreases |rest|
  {
    if |rest| > 0 {
      var init := rest[..|rest| - 1];
      assert ([s] + rest)[..|rest|] == [s] + init;
      SectionPagesCons(s, init);
    } else {
      assert [s] + rest == [s];
      assert [s][..0] == [];
    }
  }

  /** Section i + 1 of a non-empty list is section i of its tail, and the
      pages before it are the head's pages plus the pages before it in the
      tail. */
  lemma ShiftedPrefix(sections: seq<Section>, i: nat)
    requires i < |sections| - 1
    ensures sections[i + 1] == sections[1..][i]
    ensures SectionPages(sections[..i + 1]) == sections[0].length + SectionPages(sections[1..][..i])
  {
    assert sections[..i + 1] == [sections[0]] + sections[1..][..i];
    SectionPagesCons(sections[0], sections[1..][..i]);
  }

  /** A list is laid out from `start` exactly when its head starts there and
      its tail is laid out from the head's end. */
  lemma ContiguousFromCons(sections: seq<Section>, start: int)
    requires |sections| > 0
    ensures ContiguousFrom(sections, start) <==>
      sections[0].firstVpn == start && ContiguousFrom(sections[1..], start + sections[0].length)
  {
    var rest := sections[1..];
    assert sections[..0] == [];
    if ContiguousFrom(sections, start) {
      forall i | 0 <= i < |rest|
        ensures rest[i].firstVpn == start + sections[0].length + SectionPages(rest[..i])
      {
        ShiftedPrefix(sections, i);
      }
    }
    if sections[0].firstVpn == start && ContiguousFrom(rest, start + sections[0].length) {
      forall i | 1 <= i < |sections|
        ensures sections[i].firstVpn == start + SectionPages(sections[..i])
      {
        ShiftedPrefix(sections, i - 1);
      }
    }
  }

  /** The loop of `load` accepts exactly the executables whose sections are
      contiguous from where it starts counting, and then counts all their
      pages. */
  lemma {:induction false} CountContiguousIsContiguous(sections: seq<Section>, start: int)
    ensures CountContiguous(sections, start).Some? <==> ContiguousFrom(sections, start)
    ensures CountContiguous(sections, start).Some? ==>
      CountContiguous(sections, start).value == start + SectionPages(sections)
    decreases |sections|
  {
    if |sections| > 0 {
      CountContiguousIsContiguous(sections[1..], start + sections[0].length);
      ContiguousFromCons(sections, start);
      assert sections == [sections[0]] + sections[1..];
      SectionPagesCons(sections[0], sections[1..]);
    }
  }

  /** Bytes the arguments take in the argument page: a 4-byte pointer, the
      string and its null byte for each. */
  function ArgsSize(args: seq<seq<Byte>>): (n: int)
    ensures n == 4 * |args| + StringBytes(args)
    ensures n >= 5 * |args|
  {
    if |args| == 0 then 0 else ArgsSize(args[..|args| - 1]) + 4 + |args[|args| - 1]| + 1
  }

  /** Where `load` places the stack and the arguments. */
  datatype Layout = Layout(
    /** Pages of the address space: sections, stack, argument page. */
    numPages: int,
    /** Initial stack pointer: the top of the stack. */
    initialSP: int,
    /** Address of the argv pointer table, the start of the last page. */
    argv: int,
    /** Address of the first argument string, after the pointer table. */
    stringOffset: int)

  datatype LoadCheck = Fragmented | ArgumentsTooLong | Laid(layout: Layout)

  /** The checks and layout of `load`: a fragmented executable and arguments
      that do not fit in one page are refused; otherwise the address space
      is the sections, then StackPages stack pages with the stack pointer at
      their top, then one page holding the argv table followed by the
      argument strings. */
  function Load(sections: seq<Section>, args: seq<seq<Byte>>): (r: LoadCheck)
    ensures r == Fragmented <==> !Contiguous(sections)
    ensures r == ArgumentsTooLong <==> Contiguous(sections) && ArgsSize(args) > PageSize
    ensures r.Laid? ==>
      var n := SectionPages(sections);
      && r.layout.numPages == n + StackPages + 1
      && r.layout.initialSP == (n + StackPages) * PageSize
      && r.layout.argv == (r.layout.numPages - 1) * PageSize
      && r.layout.stringOffset == r.layout.argv + 4 * |args|
  {
    CountContiguousIsContiguous(sections, 0);
    match CountContiguous(sections, 0)
    case None => Fragmented
    case Some(pages) =>
      if ArgsSize(args) > PageSize then ArgumentsTooLong
      else
        var numPages := pages + StackPages;
        var initialSP := numPages * PageSize;
        // `numPages++` reserves the argument page; `entryOffset` is then
        // `(numPages - 1) * pageSize`, the stack top.
        var entryOffset := numPages * PageSize;
        Laid(Layout(numPages + 1, initialSP, entryOffset, entryOffset + |args| * 4))
  }

  /** Total bytes of the argument strings with their null bytes. */
  function StringBytes(args: seq<seq<Byte>>): nat {
    if |args| == 0 then 0 else StringBytes(args[..|args| - 1]) + |args[|args| - 1]| + 1
  }

  /** A loaded layout keeps its parts apart: the argument page starts at the
      stack top, the pointer table and the strings both fit in that last
      page, and the strings follow the table. */
  lemma ArgumentsFitInLastPage(sections: seq<Section>, args: seq<seq<Byte>>)
    requires Load(sections, args).Laid?
    ensures var l := Load(sections, args).layout;
      && l.argv == l.initialSP
      && l.argv <= l.stringOffset
      && l.stringOffset + StringBytes(args) <= l.numPages * PageSize
  {
  }

  // ---------------------------------------------------------------------
  // The file table

  /** An open file, identified opaquely. */
  type FileId = nat

  /** The 16 slots of a process's file table; None is a free slot. */
  type FileTable = seq<Option<FileId>>

  /** The file table of a new process: slot 0 holds the console's input,
      slot 1 its output, every other slot is free. */
  function NewFileTable(stdin: FileId, stdout: FileId): (t: FileTable)
    ensures |t| == MaxOpenFiles
    ensures t[0] == Some(stdin) && t[1] == Some(stdout)
    ensures forall i :: 2 <= i < |t| ==> t[i].None?
  {
    [Some(stdin), Some(stdout)] + seq(MaxOpenFiles - 2, _ => None)
  }

  /** Index of the first free slot at or after `from`, or -1. */
  function FirstFreeSlot(t: FileTable, from: nat): (fd: int)
    requires from <= |t|
    ensures fd == -1 || from <= fd < |t|
    ensures fd >= 0 ==> t[fd].None? && forall i :: from <= i < fd ==> t[i].Some?
    ensures fd == -1 ==> forall i :: from <= i < |t| ==> t[i].Some?
    decreases |t| - from
  {
    if from == |t| then -1
    else if t[from].None? then from
    else FirstFreeSlot(t, from + 1)
  }

  /** `getFileDescriptor`: the lowest free slot, or -1 when all are open. */
  function GetFileDescriptor(t: FileTable): (fd: int)
    ensures fd == -1 <==> forall i :: 0 <= i < |t| ==> t[i].Some?
    ensures fd != -1 ==> 0 <= fd < |t| && t[fd].None? && forall i :: 0 <= i < fd ==> t[i].Some?
  {
    FirstFreeSlot(t, 0)
  }

  /** A new process's first free descriptor is 2. */
  lemma NewTableGivesDescriptorTwo(stdin: FileId, stdout: FileId)
    ensures GetFileDescriptor(NewFileTable(stdin, stdout)) == 2
  {
    var t := NewFileTable(stdin, stdout);
    assert t[2].None?;
  }

  /** `handleClose(fd)`: an open descriptor in range is freed and returned;
      anything else returns -1 and changes nothing. */
  function HandleClose(t: FileTable, fd: int): (r: (FileTable, int))
    requires |t| == MaxOpenFiles
    ensures 0 <= fd < MaxOpenFiles && t[fd].Some? ==> r.1 == fd && r.0 == t[fd := None]
    ensures !(0 <= fd < MaxOpenFiles && t[fd].Some?) ==> r.1 == -1 && r.0 == t
  {
    if 0 <= fd < 16 && t[fd] != None then (t[fd := None], fd) else (t, -1)
  }

  /** After a successful close, a free descriptor exists and the lowest one
      is at most the closed descriptor, which thus is handed out again
      before any higher slot. */
  lemma CloseMakesDescriptorAvailable(t: FileTable, fd: int)
    requires |t| == MaxOpenFiles
    requires HandleClose(t, fd).1 != -1
    ensures 0 <= GetFileDescriptor(HandleClose(t, fd).0) <= fd
    ensures GetFileDescriptor(t) == -1 ==> GetFileDescriptor(HandleClose(t, fd).0) == fd
  {
    var t' := HandleClose(t, fd).0;
    assert t'[fd].None?;
    if GetFileDescriptor(t) == -1 {
      assert forall i :: 0 <= i < fd ==> t'[i] == t[i];
    }
  }
}

=== FILE: vm_kernel.dfy ===
/** The demand-paging kernel: the inverted page table (resident pages keyed
    by (pid, vpn)), the frame-owner table, page loading from the free pool or
    by eviction, unloading, and the second-chance clock scan. */
module VM {
  import opened Common
  import opened PageKeys
  import FreePool
  import Swap

  /** The kernel-wide paging state. The tables hold entries by value, and
      equal entries stand for the one object the source shares between
      tables: a write to it is `WriteThrough`, which every table holding an
      equal entry sees. */
  datatype Kernel = Kernel(
    /** `freePages`, the free list inherited from the user kernel. */
    pool: FreePool.Pool,
    /** `invertedPageTable`. */
    inverted: map<PageKey, TranslationEntry>,
    /** `globalPageTable`: the owner record of each physical frame. */
    frames: seq<Option<PageInfo>>,
    /** The swap manager's state. */
    swap: Swap.SwapStore,
    /** `pinnedPages`: frames the victim scan must skip. */
    pinned: set<int>,
    /** Physical memory, numPhysPages * PageSize bytes. */
    memory: seq<Byte>)

  /** The state after loading a page, and the entry the load returned. */
  datatype Loaded = Loaded(kernel: Kernel, entry: TranslationEntry)

  /** `freePages.peek() != null`: the pool's head exists and is not null. */
  predicate HasFreeHead(k: Kernel) {
    |k.pool| > 0 && k.pool[0].Some?
  }

  /** The victim scan over all frames, with the frame count as modulus. */
  function ScanVictim(k: Kernel): Swap.Victim
    requires |k.frames| > 0 && Swap.ScanInRange(k.swap, k.frames, |k.frames|, k.pinned)
  {
    Swap.GetPhysPageToSwap(k.swap, k.frames, |k.frames|, k.pinned)
  }

  /** The eviction path runs without fault: the scan finds an unpinned
      frame that has an owner, and that owner's frame is in range. */
  predicate CanEvict(k: Kernel) {
    && |k.frames| > 0
    && Swap.ScanInRange(k.swap, k.frames, |k.frames|, k.pinned)
    && ScanVictim(k).owner.Some?
    && var info := ScanVictim(k).owner.value;
       0 <= info.entry.ppn < |k.frames| && (info.entry.ppn + 1) * PageSize <= |k.memory|
  }

  /** `loadPage` runs without fault: the free head's frame is in range, or
      there is no free head and eviction can run. */
  predicate CanLoad(k: Kernel) {
    if HasFreeHead(k) then 0 <= k.pool[0].value.ppn < |k.frames| else CanEvict(k)
  }

  /** The write seen through a frame's owner record. */
  function InfoThrough(record: Option<PageInfo>, from: TranslationEntry, to: TranslationEntry): Option<PageInfo> {
    if record.Some? then Some(record.value.(entry := Through(record.value.entry, from, to))) else None
  }

  /** The write seen through a table keyed by page. */
  function TableThrough(table: map<PageKey, TranslationEntry>, from: TranslationEntry, to: TranslationEntry): map<PageKey, TranslationEntry> {
    map key | key in table :: Through(table[key], from, to)
  }

  /** A write to the shared entry object `from` that leaves it as `to`:
      every kernel table that holds the object sees the change, that is the
      free pool, the inverted table, the frames' owner records and the swap
      table. */
  function WriteThrough(k: Kernel, from: TranslationEntry, to: TranslationEntry): Kernel {
    k.(pool := SlotsThrough(k.pool, from, to),
       inverted := TableThrough(k.inverted, from, to),
       frames := seq(|k.frames|, p requires 0 <= p < |k.frames| => InfoThrough(k.frames[p], from, to)),
       swap := k.swap.(table := TableThrough(k.swap.table, from, to)))
  }

  /** A write through a shared object reaches every copy and nothing else:
      each reference that held `from` holds `to`, every other reference
      keeps its entry, no table is left holding the old value, and the pool
      keeps its frames when the write keeps the frame number. */
  lemma WriteThroughReachesEveryCopy(k: Kernel, from: TranslationEntry, to: TranslationEntry)
    ensures var r := WriteThrough(k, from, to);
      && r.inverted.Keys == k.inverted.Keys && r.swap.table.Keys == k.swap.table.Keys
      && |r.frames| == |k.frames| && |r.pool| == |k.pool|
      && (forall key :: key in k.inverted ==>
            r.inverted[key] == if k.inverted[key] == from then to else k.inverted[key])
      && (forall key :: key in k.swap.table ==>
            r.swap.table[key] == if k.swap.table[key] == from then to else k.swap.table[key])
      && (forall p :: 0 <= p < |k.frames| ==>
            r.frames[p] == if Holds(k.frames[p], from) then Some(k.frames[p].value.(entry := to)) else k.frames[p])
      && (forall i :: 0 <= i < |k.pool| ==>
            r.pool[i] == if k.pool[i] == Some(from) then Some(to) else k.pool[i])
      && (from != to ==>
            && (forall key :: key in r.inverted ==> r.inverted[key] != from)
            && (forall key :: key in r.swap.table ==> r.swap.table[key] != from)
            && (forall p :: 0 <= p < |r.frames| ==> !Holds(r.frames[p], from))
            && (forall i :: 0 <= i < |r.pool| ==> r.pool[i] != Some(from)))
      && (from.ppn == to.ppn ==> FreePool.Frames(r.pool) == FreePool.Frames(k.pool))
      && r.swap == k.swap.(table := r.swap.table) && r.pinned == k.pinned && r.memory == k.memory
  {
    if from.ppn == to.ppn {
      FreePool.ThroughKeepsFrames(k.pool, from, to);
    }
  }

  /** `loadPage(pid, vpn)`: takes the pool's head and marks it valid, or,
      when there is none, evicts the scan's victim through the swap manager
      and reuses its frame for vpn. Either way the inverted table maps
      (pid, vpn) to the returned entry and the frame's owner record becomes
      (pid, entry). Marking the pool's head valid is a write to an object
      other tables may still hold, and they see it too; the eviction path
      writes only a fresh entry, so there every other key keeps its entry. */
  function LoadPage(k: Kernel, pid: int, vpn: int): (r: Loaded)
    requires CanLoad(k)
    ensures r.entry.valid
    ensures PageKey(pid, vpn) in r.kernel.inverted && r.kernel.inverted[PageKey(pid, vpn)] == r.entry
    ensures forall key :: key != PageKey(pid, vpn) ==> (key in r.kernel.inverted <==> key in k.inverted)
    ensures |r.kernel.frames| == |k.frames| && 0 <= r.entry.ppn < |k.frames|
    ensures r.kernel.frames[r.entry.ppn] == Some(PageInfo(pid, r.entry))
    ensures HasFreeHead(k) ==>
      var head := k.pool[0].value;
      && r.entry == head.(valid := true)
      && r.kernel.pool == SlotsThrough(k.pool[1..], head, r.entry)
      && r.kernel.swap == k.swap.(table := TableThrough(k.swap.table, head, r.entry))
      && (forall key :: key in k.inverted && key != PageKey(pid, vpn) ==>
            r.kernel.inverted[key] == Through(k.inverted[key], head, r.entry))
      && (forall p :: 0 <= p < |k.frames| && p != r.entry.ppn ==>
            r.kernel.frames[p] == InfoThrough(k.frames[p], head, r.entry))
    ensures !HasFreeHead(k) ==>
      var info := ScanVictim(k).owner.value;
      && r.kernel.pool == k.pool
      && r.entry == TranslationEntry(vpn, info.entry.ppn, true, false, false, false)
      && r.kernel.swap.table.Keys == k.swap.table.Keys + {PageKey(info.pid, info.entry.vpn)}
      && r.kernel.swap.table[PageKey(info.pid, info.entry.vpn)] == info.entry
      && r.kernel.swap.pointer == ScanVictim(k).store.pointer
      && r.kernel.swap == Swap.SwapIn(ScanVictim(k).store, k.frames, k.memory, info).store
      && (forall key :: key in k.swap.table && key != PageKey(info.pid, info.entry.vpn) ==>
            r.kernel.swap.table[key] == k.swap.table[key])
      && (forall key :: key in k.inverted && key != PageKey(pid, vpn) ==> r.kernel.inverted[key] == k.inverted[key])
      && (forall p :: 0 <= p < |k.frames| && p != info.entry.ppn ==> r.kernel.frames[p] == k.frames[p])
    ensures r.kernel.pinned == k.pinned && r.kernel.memory == k.memory
  {
    var key := PageKey(pid, vpn);
    if HasFreeHead(k) then
      var got := FreePool.AcquirePage(k.pool);
      var te := got.entry;
      var w := WriteThrough(k.(pool := got.pool), k.pool[0].value, te);
      Loaded(w.(inverted := w.inverted[key := te],
                frames := w.frames[te.ppn := Some(PageInfo(pid, te))]), te)
    else
      var victim := ScanVictim(k);
      var out := Swap.SwapIn(victim.store, k.frames, k.memory, victim.owner.value);
      var te := out.entry.(vpn := vpn, valid := true);
      Loaded(k.(inverted := k.inverted[key := te],
                frames := out.frames[te.ppn := Some(PageInfo(pid, te))],
                swap := out.store), te)
  }

  /** Loading from the free pool moves exactly one frame out of the pool:
      the frame the returned entry names. */
  lemma LoadPageTakesOneFrame(k: Kernel, pid: int, vpn: int)
    requires CanLoad(k) && HasFreeHead(k)
    ensures FreePool.Frames(k.pool) == FreePool.Frames(LoadPage(k, pid, vpn).kernel.pool) + multiset{LoadPage(k, pid, vpn).entry.ppn}
  {
    var head := k.pool[0].value;
    FreePool.ThroughKeepsFrames(k.pool[1..], head, head.(valid := true));
  }

  /** Eviction leaves the victim's key in the inverted table: after the
      load, the victim's page is recorded as swapped out and still mapped
      as resident, on the very frame now given to the new page. */
  lemma LoadPageEvictionKeepsVictimMapped(k: Kernel, pid: int, vpn: int)
    requires CanLoad(k) && !HasFreeHead(k)
    requires var info := ScanVictim(k).owner.value;
      var vkey := PageKey(info.pid, info.entry.vpn);
      vkey in k.inverted && k.inverted[vkey].ppn == info.entry.ppn && vkey != PageKey(pid, vpn)
    ensures var info := ScanVictim(k).owner.value;
      var vkey := PageKey(info.pid, info.entry.vpn);
      var after := LoadPage(k, pid, vpn);
      && vkey in after.kernel.inverted && vkey in after.kernel.swap.table
      && after.kernel.inverted[vkey].ppn == after.entry.ppn
  {
  }

  /** The owner record holds the entry: the source's frame record and the
      inverted table then share one entry object. */
  predicate Holds(record: Option<PageInfo>, te: TranslationEntry) {
    record.Some? && record.value.entry == te
  }

  /** `releasePage(te)`: the entry is marked invalid and appended to the
      free pool. Marking it invalid is a write to the shared object, so every
      kernel table holding it sees it invalid and none keeps a valid copy;
      every other reference is unchanged. */
  function ReleaseShared(k: Kernel, te: TranslationEntry): (r: Kernel)
    ensures |r.pool| == |k.pool| + 1 && r.pool[|k.pool|] == Some(te.(valid := false))
    ensures forall i :: 0 <= i < |k.pool| ==>
      r.pool[i] == if k.pool[i] == Some(te) then Some(te.(valid := false)) else k.pool[i]
    ensures FreePool.Frames(r.pool) == FreePool.Frames(k.pool) + multiset{te.ppn}
    ensures r.inverted.Keys == k.inverted.Keys
    ensures forall key :: key in k.inverted ==>
      r.inverted[key] == if k.inverted[key] == te then te.(valid := false) else k.inverted[key]
    ensures |r.frames| == |k.frames|
    ensures forall p :: 0 <= p < |k.frames| ==>
      r.frames[p] == if Holds(k.frames[p], te) then Some(k.frames[p].value.(entry := te.(valid := false))) else k.frames[p]
    ensures r.swap.table.Keys == k.swap.table.Keys
    ensures forall key :: key in k.swap.table ==>
      r.swap.table[key] == if k.swap.table[key] == te then te.(valid := false) else k.swap.table[key]
    ensures te.valid ==> (forall key :: key in r.inverted ==> r.inverted[key] != te)
    ensures r.swap == k.swap.(table := r.swap.table)
    ensures r.pinned == k.pinned && r.memory == k.memory
  {
    var invalid := te.(valid := false);
    WriteThroughReachesEveryCopy(k, te, invalid);
    var w := WriteThrough(k, te, invalid);
    w.(pool := FreePool.ReleasePage(w.pool, te))
  }

  /** `unloadPage` as written: the entry goes back to the free pool marked
      invalid, and every table sharing it sees it invalid, under whatever
      key; but the removal is asked with the key object of a table keyed by
      strings, so the inverted table keeps the key, now mapped to the
      invalid entry. */
  function UnloadPageAsWritten(k: Kernel, pid: int, vpn: int): (r: Kernel)
    ensures |r.frames| == |k.frames|
    ensures r.inverted.Keys == k.inverted.Keys
    ensures PageKey(pid, vpn) !in k.inverted ==> r == k
    ensures PageKey(pid, vpn) in k.inverted ==>
      var te := k.inverted[PageKey(pid, vpn)];
      && FreePool.Frames(r.pool) == FreePool.Frames(k.pool) + multiset{te.ppn}
      && |r.pool| == |k.pool| + 1 && r.pool[|k.pool|] == Some(te.(valid := false))
      && r.inverted[PageKey(pid, vpn)] == te.(valid := false)
      && (forall key :: key in k.inverted && k.inverted[key] == te ==> r.inverted[key] == te.(valid := false))
      && (forall key :: key in k.inverted && k.inverted[key] != te ==> r.inverted[key] == k.inverted[key])
      && (forall p :: 0 <= p < |k.frames| && Holds(k.frames[p], te) ==>
            r.frames[p] == Some(k.frames[p].value.(entry := te.(valid := false))))
      && (forall p :: 0 <= p < |k.frames| && !Holds(k.frames[p], te) ==> r.frames[p] == k.frames[p])
  {
    var key := PageKey(pid, vpn);
    if key in k.inverted then ReleaseShared(k, k.inverted[key]) else k
  }

  /** Unloading the same page twice as written puts its frame in the free
      pool twice while the page stays mapped to it. */
  lemma UnloadTwiceAsWrittenFreesFrameTwice(k: Kernel, pid: int, vpn: int)
    requires PageKey(pid, vpn) in k.inverted
    ensures var ppn := k.inverted[PageKey(pid, vpn)].ppn;
      var twice := UnloadPageAsWritten(UnloadPageAsWritten(k, pid, vpn), pid, vpn);
      && FreePool.Frames(twice.pool) == FreePool.Frames(k.pool) + multiset{ppn, ppn}
      && PageKey(pid, vpn) in twice.inverted && twice.inverted[PageKey(pid, vpn)].ppn == ppn
  {
  }

  /** The corrected `unloadPage`: the entry goes back to the free pool
      marked invalid, every table sharing it sees it invalid, and its key
      leaves the inverted table. */
  function UnloadPage(k: Kernel, pid: int, vpn: int): (r: Kernel)
    ensures |r.frames| == |k.frames|
    ensures PageKey(pid, vpn) !in r.inverted
    ensures r.inverted.Keys == k.inverted.Keys - {PageKey(pid, vpn)}
    ensures PageKey(pid, vpn) !in k.inverted ==> r == k
    ensures PageKey(pid, vpn) in k.inverted ==>
      var te := k.inverted[PageKey(pid, vpn)];
      && FreePool.Frames(r.pool) == FreePool.Frames(k.pool) + multiset{te.ppn}
      && |r.pool| == |k.pool| + 1 && r.pool[|k.pool|] == Some(te.(valid := false))
      && (forall key :: key in r.inverted && k.inverted[key] == te ==> r.inverted[key] == te.(valid := false))
      && (forall key :: key in r.inverted && k.inverted[key] != te ==> r.inverted[key] == k.inverted[key])
      && (forall p :: 0 <= p < |k.frames| && Holds(k.frames[p], te) ==>
            r.frames[p] == Some(k.frames[p].value.(entry := te.(valid := false))))
      && (forall p :: 0 <= p < |k.frames| && !Holds(k.frames[p], te) ==> r.frames[p] == k.frames[p])
  {
    var key := PageKey(pid, vpn);
    if key in k.inverted then
      var released := ReleaseShared(k, k.inverted[key]);
      released.(inverted := released.inverted - {key})
    else k
  }

  /** Load then unload: the loaded entry goes back to the pool with its
      frame, and the frame's owner record, which shares the entry, sees it
      invalid. As written the key stays mapped to the invalid entry; the
      corrected unload removes it. */
  lemma LoadThenUnloadReleasesFrame(k: Kernel, pid: int, vpn: int)
    requires CanLoad(k)
    ensures var l := LoadPage(k, pid, vpn);
      var asWritten := UnloadPageAsWritten(l.kernel, pid, vpn);
      var corrected := UnloadPage(l.kernel, pid, vpn);
      && FreePool.Frames(corrected.pool) == FreePool.Frames(l.kernel.pool) + multiset{l.entry.ppn}
      && corrected.frames[l.entry.ppn] == Some(PageInfo(pid, l.entry.(valid := false)))
      && PageKey(pid, vpn) !in corrected.inverted
      && asWritten.frames[l.entry.ppn] == corrected.frames[l.entry.ppn]
      && asWritten.inverted[PageKey(pid, vpn)] == l.entry.(valid := false)
  {
  }

  /** As written, a page that is unloaded and whose frame another page then
      takes from the pool shares that frame with it. The key the removal
      missed still maps to the released entry, and when `loadPage` marks
      that entry valid, the stale key sees it valid too. The corrected
      unload leaves no such key. */
  lemma StaleKeySharesReusedFrame(k: Kernel, pid: int, vpn: int, pid2: int, vpn2: int)
    requires PageKey(pid, vpn) in k.inverted && PageKey(pid2, vpn2) != PageKey(pid, vpn)
    requires k.pool == [] && 0 <= k.inverted[PageKey(pid, vpn)].ppn < |k.frames|
    ensures var u := UnloadPageAsWritten(k, pid, vpn);
      && CanLoad(u)
      && var l := LoadPage(u, pid2, vpn2);
         && l.entry.valid && l.entry.ppn == k.inverted[PageKey(pid, vpn)].ppn
         && l.kernel.inverted[PageKey(pid, vpn)] == l.entry
         && l.kernel.inverted[PageKey(pid2, vpn2)] == l.entry
    ensures var c := UnloadPage(k, pid, vpn);
      CanLoad(c) && PageKey(pid, vpn) !in LoadPage(c, pid2, vpn2).kernel.inverted
  {
  }

  /** Unloading is idempotent once the key is removed: a second unload
      changes nothing, so a frame is released at most once per load. */
  lemma UnloadPageIdempotent(k: Kernel, pid: int, vpn: int)
    ensures UnloadPage(UnloadPage(k, pid, vpn), pid, vpn) == UnloadPage(k, pid, vpn)
  {
  }

  /** `loadPageFromSwap(pid, vpn, ppn)`: the swapped-out entry of (pid, vpn)
      is given frame ppn, becomes the frame's owner record and is mapped in
      the inverted table. Setting its frame number is a write to the shared
      object, so the swap table, which keeps the key, and every other table
      holding the object see the new frame number too. */
  function LoadPageFromSwap(k: Kernel, pid: int, vpn: int, ppn: int): (r: Loaded)
    requires PageKey(pid, vpn) in k.swap.table
    requires 0 <= ppn < |k.frames|
    ensures var swapped := k.swap.table[PageKey(pid, vpn)];
      && r.entry == swapped.(ppn := ppn)
      && PageKey(pid, vpn) in r.kernel.inverted && r.kernel.inverted[PageKey(pid, vpn)] == r.entry
      && r.kernel.swap == k.swap.(table := TableThrough(k.swap.table, swapped, r.entry))
      && |r.kernel.frames| == |k.frames|
      && r.kernel.frames[ppn] == Some(PageInfo(pid, r.entry))
      && (forall p :: 0 <= p < |k.frames| && p != ppn ==> r.kernel.frames[p] == InfoThrough(k.frames[p], swapped, r.entry))
      && (forall key :: key != PageKey(pid, vpn) ==>
            (key in r.kernel.inverted <==> key in k.inverted) &&
            (key in k.inverted ==> r.kernel.inverted[key] == Through(k.inverted[key], swapped, r.entry)))
      && r.kernel.pool == SlotsThrough(k.pool, swapped, r.entry)
    ensures PageKey(pid, vpn) in r.kernel.swap.table && r.kernel.swap.table[PageKey(pid, vpn)] == r.entry
    ensures r.kernel.pinned == k.pinned && r.kernel.memory == k.memory
  {
    var key := PageKey(pid, vpn);
    var swapped := k.swap.table[key];
    var te := swapped.(ppn := ppn);
    var w := WriteThrough(k, swapped, te);
    Loaded(w.(inverted := w.inverted[key := te],
              frames := w.frames[ppn := Some(PageInfo(pid, te))]), te)
  }

  /** Evicting a page and loading it back from swap into frame p restores
      it: `getEntry` of the victim's key gives the entry it was swapped out
      with, now on frame p, and frame p's owner record agrees. */
  lemma EvictThenReloadRestoresEntry(k: Kernel, pid: int, vpn: int, p: int)
    requires CanLoad(k) && !HasFreeHead(k)
    requires 0 <= p < |k.frames|
    ensures var info := ScanVictim(k).owner.value;
      var after := LoadPage(k, pid, vpn).kernel;
      && PageKey(info.pid, info.entry.vpn) in after.swap.table
      && 0 <= p < |after.frames|
      && var back := LoadPageFromSwap(after, info.pid, info.entry.vpn, p).kernel;
         && GetEntry(back, info.pid, info.entry.vpn) == Some(info.entry.(ppn := p))
         && back.frames[p] == Some(PageInfo(info.pid, info.entry.(ppn := p)))
  {
  }

  /** A page reloaded from swap keeps its swap record, which shares the
      entry. Once the corrected unload has released the entry and another
      page has taken its frame from the pool, the swap record sees the entry
      valid again, and `getEntry` of the unloaded page reports it on the
      frame the other page now owns. */
  lemma SwapRecordFollowsReusedFrame(k: Kernel, pid: int, vpn: int, ppn: int, pid2: int, vpn2: int)
    requires PageKey(pid, vpn) in k.swap.table && 0 <= ppn < |k.frames|
    requires k.pool == [] && PageKey(pid2, vpn2) != PageKey(pid, vpn)
    ensures var s := LoadPageFromSwap(k, pid, vpn, ppn).kernel;
      var u := UnloadPage(s, pid, vpn);
      && CanLoad(u)
      && var l := LoadPage(u, pid2, vpn2);
         && l.entry.valid && l.entry.ppn == ppn
         && l.kernel.frames[ppn] == Some(PageInfo(pid2, l.entry))
         && GetEntry(l.kernel, pid, vpn) == Some(l.entry)
  {
  }

  /** `getEntry(pid, vpn)`: the resident entry if there is one, otherwise
      the swapped-out entry, otherwise null. */
  function GetEntry(k: Kernel, pid: int, vpn: int): (r: Option<TranslationEntry>)
    ensures PageKey(pid, vpn) in k.inverted ==> r == Some(k.inverted[PageKey(pid, vpn)])
    ensures PageKey(pid, vpn) !in k.inverted && PageKey(pid, vpn) in k.swap.table ==>
      r == Some(k.swap.table[PageKey(pid, vpn)])
    ensures r.None? <==> PageKey(pid, vpn) !in k.inverted && PageKey(pid, vpn) !in k.swap.table
  {
    var key := PageKey(pid, vpn);
    if key in k.inverted then Some(k.inverted[key]) else Swap.Find(k.swap, key)
  }

  /** `setEntry(pid, vpn, ppn)`: files a fresh entry for (pid, vpn) on frame
      ppn (valid, writable, used, clean), replacing any previous one. */
  function SetEntry(k: Kernel, pid: int, vpn: int, ppn: int): (r: Loaded)
    ensures r.entry.vpn == vpn && r.entry.ppn == ppn
    ensures r.entry.valid && !r.entry.readOnly && r.entry.used && !r.entry.dirty
    ensures r.kernel == k.(inverted := k.inverted[PageKey(pid, vpn) := r.entry])
  {
    var te := TranslationEntry(vpn, ppn, true, false, true, false);
    Loaded(k.(inverted := k.inverted[PageKey(pid, vpn) := te]), te)
  }

  /** After `setEntry`, `getEntry` of the same page finds the new entry and
      every other page's lookup is unchanged. */
  lemma SetThenGetEntry(k: Kernel, pid: int, vpn: int, ppn: int, otherPid: int, otherVpn: int)
    ensures GetEntry(SetEntry(k, pid, vpn, ppn).kernel, pid, vpn) == Some(SetEntry(k, pid, vpn, ppn).entry)
    ensures PageKey(otherPid, otherVpn) != PageKey(pid, vpn) ==>
      GetEntry(SetEntry(k, pid, vpn, ppn).kernel, otherPid, otherVpn) == GetEntry(k, otherPid, otherVpn)
  {
  }

  // ---------------------------------------------------------------------
  // The clock (second-chance) scan

  /** What `clockAlgorithm` leaves behind: the table, the victim's entry
      (None where the source returns null), and the caller's entry with the
      victim's frame number written into it. */
  datatype ClockResult = ClockResult(table: map<PageKey, TranslationEntry>, victim: Option<TranslationEntry>, value: TranslationEntry)

  /** `order` enumerates the keys of `table`, each exactly once. */
  ghost predicate Enumerates(table: map<PageKey, TranslationEntry>, order: seq<PageKey>) {
    && (forall key :: key in table <==> key in order)
    && (forall i, j :: 0 <= i < j < |order| ==> order[i] != order[j])
  }

  /** The second chance given to an entry the scan passes: a used, clean
      entry loses its used bit; a used, dirty entry is left as it is. */
  function SecondChance(te: TranslationEntry): TranslationEntry {
    if te.used && !te.dirty then te.(used := false) else te
  }

  /** Index of the first entry at or after `from`, in enumeration order,
      whose used bit is clear, or -1. */
  function FirstUnused(table: map<PageKey, TranslationEntry>, order: seq<PageKey>, from: nat): (i: int)
    requires from <= |order|
    requires forall j :: 0 <= j < |order| ==> order[j] in table
    ensures i == -1 || from <= i < |order|
    ensures i >= 0 ==> !table[order[i]].used && forall j :: from <= j < i ==> table[order[j]].used
    ensures i == -1 ==> forall j :: from <= j < |order| ==> table[order[j]].used
    decreases |order| - from
  {
    if from == |order| then -1
    else if !table[order[from]].used then from
    else FirstUnused(table, order, from + 1)
  }

  /** The table after the scan has passed the first n keys of the order. */
  function Sweep(table: map<PageKey, TranslationEntry>, order: seq<PageKey>, n: nat): (r: map<PageKey, TranslationEntry>)
    requires n <= |order|
    requires Enumerates(table, order)
    ensures r.Keys == table.Keys
    ensures forall j :: 0 <= j < n ==> r[order[j]] == SecondChance(table[order[j]])
    ensures forall j :: n <= j < |order| ==> r[order[j]] == table[order[j]]
  {
    if n == 0 then table
    else
      var s := Sweep(table, order, n - 1);
      s[order[n - 1] := SecondChance(s[order[n - 1]])]
  }

  /** How many keys the scan passes before it stops: up to the first
      unused entry, or all of them when every entry is used. */
  function Passed(table: map<PageKey, TranslationEntry>, order: seq<PageKey>): (n: nat)
    requires Enumerates(table, order)
    ensures n <= |order|
    ensures forall j :: 0 <= j < n ==> table[order[j]].used
    ensures n < |order| ==> !table[order[n]].used
  {
    var first := FirstUnused(table, order, 0);
    if first >= 0 then first else |order|
  }

  /** The victim's position: where the scan stopped, or the first key when
      the scan passed every key. */
  function VictimIndex(table: map<PageKey, TranslationEntry>, order: seq<PageKey>): (vi: nat)
    requires Enumerates(table, order) && |order| > 0
    ensures vi < |order|
    ensures vi == if Passed(table, order) < |order| then Passed(table, order) else 0
  {
    var n := Passed(table, order);
    if n < |order| then n else 0
  }

  /** `clockAlgorithm(key, value)`: visits the keys in the table's
      enumeration order `order`. The first entry whose used bit is clear is
      the victim; the entries passed before it get a second chance. If every
      entry is used, the scan passes them all and the victim is the first
      key of a fresh enumeration, which is the same first key since no key
      was added or removed. The victim's key leaves the table, `value` takes
      the victim's frame and is filed under `key`, and the victim's entry is
      returned. An empty table gives null and no change. */
  function ClockAlgorithm(table: map<PageKey, TranslationEntry>, order: seq<PageKey>, key: PageKey, value: TranslationEntry): (r: ClockResult)
    requires Enumerates(table, order)
    ensures |order| == 0 ==> r == ClockResult(table, None, value)
    ensures |order| > 0 ==>
      && r.victim.Some?
      && r.value == value.(ppn := r.victim.value.ppn)
      && key in r.table && r.table[key] == r.value
  {
    if |order| == 0 then ClockResult(table, None, value)
    else
      var vi := VictimIndex(table, order);
      var swept := Sweep(table, order, Passed(table, order));
      var victim := swept[order[vi]];
      var value' := value.(ppn := victim.ppn);
      ClockResult((swept - {order[vi]})[key := value'], Some(victim), value')
  }

  /** The clock's victim is the first unused entry as it was; when every
      entry is used it is the first key's entry after its second chance. A
      victim whose used bit is set therefore means every entry was used and
      the first was dirty. */
  lemma ClockVictim(table: map<PageKey, TranslationEntry>, order: seq<PageKey>, key: PageKey, value: TranslationEntry)
    requires Enumerates(table, order) && |order| > 0
    ensures var vi := VictimIndex(table, order);
      ClockAlgorithm(table, order, key, value).victim ==
        Some(if Passed(table, order) < |order| then table[order[vi]] else SecondChance(table[order[vi]]))
    ensures var v := ClockAlgorithm(table, order, key, value).victim.value;
      v.used ==> table[order[0]].dirty && forall j :: 0 <= j < |order| ==> table[order[j]].used
  {
  }

  /** The table the clock leaves: the victim's key is gone, `key` holds the
      caller's entry, the entries the scan passed have had their second
      chance, and the entries after the stop are untouched. */
  lemma ClockTable(table: map<PageKey, TranslationEntry>, order: seq<PageKey>, key: PageKey, value: TranslationEntry)
    requires Enumerates(table, order) && |order| > 0
    ensures var r := ClockAlgorithm(table, order, key, value);
      var vi := VictimIndex(table, order);
      && (forall k :: k in r.table <==> (k in table && k != order[vi]) || k == key)
      && (forall j :: 0 <= j < Passed(table, order) && order[j] != key && j != vi ==>
            r.table[order[j]] == SecondChance(table[order[j]]))
      && (forall j :: Passed(table, order) <= j < |order| && order[j] != key && j != vi ==>
            r.table[order[j]] == table[order[j]])
  {
  }

  /** The clock can evict a page whose used bit is set: when the only
      resident page is used and dirty, the scan gives it no second chance
      and the fallback takes it as it is. */
  lemma ClockCanEvictUsedPage(pid: int, vpn: int, ppn: int, key: PageKey, value: TranslationEntry)
    ensures var te := TranslationEntry(vpn, ppn, true, false, true, true);
      var table := map[PageKey(pid, vpn) := te];
      ClockAlgorithm(table, [PageKey(pid, vpn)], key, value).victim == Some(te)
  {
    var te := TranslationEntry(vpn, ppn, true, false, true, true);
    var table := map[PageKey(pid, vpn) := te];
    assert FirstUnused(table, [PageKey(pid, vpn)], 0) == -1;
  }
}

=== FILE: vm_process.dfy ===
/** The demand-paging side of a user process: the TLB flush on a context
    switch, the TLB-miss handler, the per-page setup of the program's
    sections, and the dispatch of processor exceptions. */
module VMProc {
  import opened Common
  import opened PageKeys
  import FreePool
  import Tlb
  import VM
  import Process

  /** The part of a process the fault path reads and writes. */
  datatype Proc = Proc(
    pid: int,
    /** Pages of the address space, as `load` computes them. */
    numPages: int,
    /** The process's page table, indexed by virtual page number. */
    pageTable: seq<Option<TranslationEntry>>)

  /** `restoreState`: every TLB slot is invalidated, keeping its other
      fields, so nothing cached for the previous process can be used. */
  function RestoreState(tlb: Tlb.Slots): (r: Tlb.Slots)
    ensures |r| == |tlb|
    ensures forall i :: 0 <= i < |r| ==> !r[i].valid && r[i] == tlb[i].(valid := false)
  {
    seq(|tlb|, i requires 0 <= i < |tlb| => tlb[i].(valid := false))
  }

  /** After a context switch every lookup misses and changes nothing. */
  lemma RestoreStateHidesEveryPage(tlb: Tlb.Slots, vpn: int, isWrite: bool)
    ensures Tlb.Find(RestoreState(tlb), vpn, isWrite) == Tlb.Lookup(RestoreState(tlb), None)
  {
    var r := RestoreState(tlb);
    assert forall i :: 0 <= i < |r| ==> !Tlb.Matches(r[i], vpn);
  }

  /** `getPageFromPageTable`: the page-table slot of a valid address, or
      null for an invalid one. */
  function PageTableEntry(p: Proc, vaddr: int): (r: Option<TranslationEntry>)
    requires IsInt32(vaddr)
    requires Process.ValidAddress(vaddr, p.numPages) ==> 0 <= FreePool.Vpn(vaddr) < |p.pageTable|
    ensures !Process.ValidAddress(vaddr, p.numPages) ==> r.None?
    ensures Process.ValidAddress(vaddr, p.numPages) ==> r == p.pageTable[FreePool.Vpn(vaddr)]
  {
    if Process.ValidAddress(vaddr, p.numPages) then p.pageTable[FreePool.Vpn(vaddr)] else None
  }

  /** A valid address whose page-table slot is empty or invalid: the miss
      handler has to load the page. */
  predicate NeedsLoad(p: Proc, vaddr: int)
    requires IsInt32(vaddr)
    requires Process.ValidAddress(vaddr, p.numPages) ==> 0 <= FreePool.Vpn(vaddr) < |p.pageTable|
  {
    Process.ValidAddress(vaddr, p.numPages) &&
    (PageTableEntry(p, vaddr).None? || !PageTableEntry(p, vaddr).value.valid)
  }

  /** The miss handler runs without fault: the page-table index is in
      range, there is a TLB slot to fill, and a needed load can run. */
  predicate CanHandleMiss(k: VM.Kernel, tlb: Tlb.Slots, p: Proc, vaddr: int, randomIndex: int) {
    && IsInt32(vaddr)
    && (Process.ValidAddress(vaddr, p.numPages) ==>
          && 0 <= FreePool.Vpn(vaddr) < |p.pageTable|
          && 0 <= randomIndex < |tlb|
          && (NeedsLoad(p, vaddr) ==> VM.CanLoad(k)))
  }

  /** The state after a TLB miss, and the value the handler returns. */
  datatype Miss = Miss(kernel: VM.Kernel, tlb: Tlb.Slots, result: int)

  /** `handleTLBMiss(vaddr)`: an invalid address returns -1 and changes
      nothing. A valid page-table entry is installed in the TLB as it is;
      otherwise `loadPage(pid, vpn(vaddr))` supplies the entry. The page
      table is not updated. The result is the installed entry's frame. */
  function HandleTLBMiss(k: VM.Kernel, tlb: Tlb.Slots, p: Proc, vaddr: int, randomIndex: int): (r: Miss)
    requires CanHandleMiss(k, tlb, p, vaddr, randomIndex)
    ensures !Process.ValidAddress(vaddr, p.numPages) ==> r == Miss(k, tlb, -1)
    ensures Process.ValidAddress(vaddr, p.numPages) && !NeedsLoad(p, vaddr) ==>
      var te := p.pageTable[FreePool.Vpn(vaddr)].value;
      && r.kernel == k
      && r.result == te.ppn
      && r.tlb == Tlb.Add(tlb, te, randomIndex).slots
    ensures NeedsLoad(p, vaddr) ==>
      var loaded := VM.LoadPage(k, p.pid, FreePool.Vpn(vaddr));
      && r.kernel == loaded.kernel
      && r.result == loaded.entry.ppn
      && r.tlb == Tlb.Add(tlb, loaded.entry, randomIndex).slots
  {
    if !Process.ValidAddress(vaddr, p.numPages) then Miss(k, tlb, -1)
    else
      var current := PageTableEntry(p, vaddr);
      if current.None? || !current.value.valid then
        var loaded := VM.LoadPage(k, p.pid, FreePool.Vpn(vaddr));
        Miss(loaded.kernel, Tlb.Add(tlb, loaded.entry, randomIndex).slots, loaded.entry.ppn)
      else
        Miss(k, Tlb.Add(tlb, current.value, randomIndex).slots, current.value.ppn)
  }

  /** The entry a miss installs in the TLB. */
  function InstalledEntry(k: VM.Kernel, p: Proc, vaddr: int): TranslationEntry
    requires IsInt32(vaddr) && Process.ValidAddress(vaddr, p.numPages)
    requires 0 <= FreePool.Vpn(vaddr) < |p.pageTable|
    requires NeedsLoad(p, vaddr) ==> VM.CanLoad(k)
  {
    if NeedsLoad(p, vaddr) then VM.LoadPage(k, p.pid, FreePool.Vpn(vaddr)).entry
    else p.pageTable[FreePool.Vpn(vaddr)].value
  }

  /** After a miss on a valid address, a TLB lookup of the faulting page
      hits and translates to the frame the handler returned, provided the
      installed entry maps that page, no other valid slot maps it and the
      access is allowed. */
  lemma MissThenLookupHits(k: VM.Kernel, tlb: Tlb.Slots, p: Proc, vaddr: int, randomIndex: int, isWrite: bool)
    requires CanHandleMiss(k, tlb, p, vaddr, randomIndex)
    requires Process.ValidAddress(vaddr, p.numPages)
    requires var te := InstalledEntry(k, p, vaddr);
      te.vpn == FreePool.Vpn(vaddr) && te.valid && !(te.readOnly && isWrite)
    requires forall j :: 0 <= j < |tlb| && tlb[j].valid ==> tlb[j].vpn != FreePool.Vpn(vaddr)
    ensures var r := HandleTLBMiss(k, tlb, p, vaddr, randomIndex);
      var hit := Tlb.Find(r.tlb, FreePool.Vpn(vaddr), isWrite).entry;
      hit.Some? && hit.value.ppn == r.result
  {
    Tlb.AddThenFindHits(tlb, InstalledEntry(k, p, vaddr), randomIndex, isWrite);
  }

  /** A page loaded from the free pool keeps the vpn the pool entry had, so
      the TLB receives an entry for that page number and not for the
      faulting one whenever the two differ. */
  lemma MissFromFreePoolInstallsStaleVpn(k: VM.Kernel, tlb: Tlb.Slots, p: Proc, vaddr: int, randomIndex: int)
    requires CanHandleMiss(k, tlb, p, vaddr, randomIndex)
    requires NeedsLoad(p, vaddr) && VM.HasFreeHead(k)
    requires k.pool[0].value.vpn != FreePool.Vpn(vaddr)
    ensures var r := HandleTLBMiss(k, tlb, p, vaddr, randomIndex);
      var slot := Tlb.Add(tlb, VM.LoadPage(k, p.pid, FreePool.Vpn(vaddr)).entry, randomIndex).index;
      r.tlb[slot].vpn == k.pool[0].value.vpn && r.tlb[slot].vpn != FreePool.Vpn(vaddr)
  {
  }

  // ---------------------------------------------------------------------
  // Exception dispatch

  /** The exception a user program raised. */
  datatype Cause = TLBMiss | Syscall | OtherCause(code: int)

  /** What handling an exception does: a miss is handled here and leaves a
      value in register V0; a syscall goes to the syscall dispatcher; any
      other exception ends the process with status -1. */
  datatype Outcome = MissHandled(kernel: VM.Kernel, tlb: Tlb.Slots, v0: int) | SyscallDispatched | Exited(status: int)

  /** Both runs of the miss handler can run: the second on the state the
      first leaves. */
  predicate CanHandleException(k: VM.Kernel, tlb: Tlb.Slots, p: Proc, cause: Cause, badVAddr: int, firstIndex: int, secondIndex: int) {
    cause.TLBMiss? ==>
      && CanHandleMiss(k, tlb, p, badVAddr, firstIndex)
      && var first := HandleTLBMiss(k, tlb, p, badVAddr, firstIndex);
         CanHandleMiss(first.kernel, first.tlb, p, badVAddr, secondIndex)
  }

  /** `handleException(cause)`: a TLB miss runs the miss handler on the bad
      address twice, and the second run's result goes to V0; every other
      cause goes to the user-process handler, which dispatches syscalls and
      ends the process on anything else. */
  function HandleException(k: VM.Kernel, tlb: Tlb.Slots, p: Proc, cause: Cause, badVAddr: int, firstIndex: int, secondIndex: int): (r: Outcome)
    requires CanHandleException(k, tlb, p, cause, badVAddr, firstIndex, secondIndex)
    ensures cause.TLBMiss? <==> r.MissHandled?
    ensures cause.Syscall? <==> r.SyscallDispatched?
    ensures cause.OtherCause? <==> r == Exited(-1)
    ensures cause.TLBMiss? ==>
      var first := HandleTLBMiss(k, tlb, p, badVAddr, firstIndex);
      var second := HandleTLBMiss(first.kernel, first.tlb, p, badVAddr, secondIndex);
      r == MissHandled(second.kernel, second.tlb, second.result)
  {
    match cause
    case TLBMiss =>
      var first := HandleTLBMiss(k, tlb, p, badVAddr, firstIndex);
      var second := HandleTLBMiss(first.kernel, first.tlb, p, badVAddr, secondIndex);
      MissHandled(second.kernel, second.tlb, second.result)
    case Syscall => SyscallDispatched
    case OtherCause(_) => Exited(-1)
  }

  /** Since the miss handler never records the loaded page in the page
      table, one miss on an unmapped page served from the free pool takes
      two frames: V0 gets the second, and the first stays allocated. The
      rest of the pool keeps its frames; only the valid bits of entries
      shared with the two taken heads change. */
  lemma OneMissTakesTwoFrames(k: VM.Kernel, tlb: Tlb.Slots, p: Proc, vaddr: int, firstIndex: int, secondIndex: int)
    requires CanHandleMiss(k, tlb, p, vaddr, firstIndex)
    requires NeedsLoad(p, vaddr)
    requires |k.pool| >= 2 && k.pool[0].Some? && k.pool[1].Some?
    requires 0 <= k.pool[0].value.ppn < |k.frames| && 0 <= k.pool[1].value.ppn < |k.frames|
    requires 0 <= secondIndex < |tlb|
    ensures CanHandleException(k, tlb, p, TLBMiss, vaddr, firstIndex, secondIndex)
    ensures var r := HandleException(k, tlb, p, TLBMiss, vaddr, firstIndex, secondIndex);
      && r.v0 == k.pool[1].value.ppn
      && FreePool.Frames(r.kernel.pool) == FreePool.Frames(k.pool[2..])
      && FreePool.SameUpToValid(r.kernel.pool, k.pool[2..])
  {
    var head := k.pool[0].value;
    var first := HandleTLBMiss(k, tlb, p, vaddr, firstIndex);
    var rest := SlotsThrough(k.pool[2..], head, head.(valid := true));
    assert first.kernel.pool == SlotsThrough(k.pool[1..], head, head.(valid := true));
    assert first.kernel.pool[1..] == rest;
    assert VM.HasFreeHead(first.kernel);
    var second := first.kernel.pool[0].value;
    var final := SlotsThrough(rest, second, second.(valid := true));
    assert HandleTLBMiss(first.kernel, first.tlb, p, vaddr, secondIndex).kernel.pool == final;
    FreePool.ThroughKeepsFrames(k.pool[2..], head, head.(valid := true));
    FreePool.ThroughKeepsFrames(rest, second, second.(valid := true));
    FreePool.ValidWriteKeepsPool(rest, second, true, final);
    FreePool.ValidWriteKeepsPool(k.pool[2..], head, true, final);
  }

  // ---------------------------------------------------------------------
  // Per-page setup in loadSections

  /** The state after setting up one page of a section. */
  datatype SectionLoad = SectionLoad(kernel: VM.Kernel, proc: Proc, entry: TranslationEntry)

  /** Page i of a section is set up: `loadPage(pid, i)` supplies the entry,
      keyed by the index within the section. The page table stores it at
      the page's vpn, and the entry then takes that vpn and the section's
      read-only flag. Those are writes to the shared object: the inverted
      table, the frame's owner record, the page table and every other table
      holding it see both changes. */
  function LoadSectionPage(k: VM.Kernel, p: Proc, section: Process.Section, i: nat): (r: SectionLoad)
    requires VM.CanLoad(k)
    requires 0 <= section.firstVpn + i < |p.pageTable|
    ensures var vpn := section.firstVpn + i;
      var loaded := VM.LoadPage(k, p.pid, i);
      && r.entry == loaded.entry.(vpn := vpn, readOnly := section.readOnly)
      && r.entry.valid
      && r.proc == p.(pageTable := SlotsThrough(p.pageTable, loaded.entry, r.entry)[vpn := Some(r.entry)])
      && PageKey(p.pid, i) in r.kernel.inverted && r.kernel.inverted[PageKey(p.pid, i)] == r.entry
      && r.kernel.inverted.Keys == loaded.kernel.inverted.Keys
      && (forall key :: key in loaded.kernel.inverted ==>
            r.kernel.inverted[key] == Through(loaded.kernel.inverted[key], loaded.entry, r.entry))
      && |r.kernel.frames| == |k.frames|
      && r.kernel.frames[r.entry.ppn] == Some(PageInfo(p.pid, r.entry))
      && r.kernel.pool == SlotsThrough(loaded.kernel.pool, loaded.entry, r.entry)
      && FreePool.Frames(r.kernel.pool) == FreePool.Frames(loaded.kernel.pool)
  {
    var vpn := section.firstVpn + i;
    var loaded := VM.LoadPage(k, p.pid, i);
    var te := loaded.entry.(vpn := vpn, readOnly := section.readOnly);
    FreePool.ThroughKeepsFrames(loaded.kernel.pool, loaded.entry, te);
    SectionLoad(VM.WriteThrough(loaded.kernel, loaded.entry, te),
                p.(pageTable := SlotsThrough(p.pageTable, loaded.entry, te)[vpn := Some(te)]), te)
  }

  /** A page set up by `loadSections` is served without a load: a miss on
      an address of that page takes the page-table entry as it is, installs
      it in the TLB and returns its frame, and the kernel is unchanged. */
  lemma SectionPageThenMissHits(k: VM.Kernel, p: Proc, section: Process.Section, i: nat, tlb: Tlb.Slots, vaddr: int, randomIndex: int)
    requires VM.CanLoad(k)
    requires 0 <= section.firstVpn + i < |p.pageTable|
    requires IsInt32(vaddr) && vaddr >= 0 && FreePool.Vpn(vaddr) == section.firstVpn + i
    requires Process.ValidAddress(vaddr, p.numPages)
    requires 0 <= randomIndex < |tlb|
    ensures var s := LoadSectionPage(k, p, section, i);
      && CanHandleMiss(s.kernel, tlb, s.proc, vaddr, randomIndex)
      && !NeedsLoad(s.proc, vaddr)
      && HandleTLBMiss(s.kernel, tlb, s.proc, vaddr, randomIndex)
         == Miss(s.kernel, Tlb.Add(tlb, s.entry, randomIndex).slots, s.entry.ppn)
  {
  }

  /** Keys by the index within the section collide across sections: after
      page 0 of one section and page 0 of the next are set up from the free
      pool, the inverted table holds only the second, while the page table
      still maps the first section's page to a frame the inverted table no
      longer records. */
  lemma SectionKeysCollide(k: VM.Kernel, p: Proc, a: Process.Section, b: Process.Section)
    requires |k.pool| >= 2 && k.pool[0].Some? && k.pool[1].Some?
    requires 0 <= k.pool[0].value.ppn < |k.frames| && 0 <= k.pool[1].value.ppn < |k.frames|
    requires k.pool[0].value.ppn != k.pool[1].value.ppn
    requires 0 <= a.firstVpn < b.firstVpn < |p.pageTable|
    ensures VM.CanLoad(k)
    ensures VM.CanLoad(LoadSectionPage(k, p, a, 0).kernel)
    ensures var first := LoadSectionPage(k, p, a, 0);
      var second := LoadSectionPage(first.kernel, first.proc, b, 0);
      && second.proc.pageTable[a.firstVpn] == Some(first.entry)
      && second.kernel.inverted[PageKey(p.pid, 0)] == second.entry
      && second.entry.ppn != first.entry.ppn
  {
    var head := k.pool[0].value;
    var loaded := VM.LoadPage(k, p.pid, 0);
    var first := LoadSectionPage(k, p, a, 0);
    var next := Through(k.pool[1].value, head, head.(valid := true));
    assert loaded.kernel.pool[0] == Some(next);
    assert first.kernel.pool[0] == Some(Through(next, loaded.entry, first.entry));
    var loaded2 := VM.LoadPage(first.kernel, first.proc.pid, 0);
    assert loaded2.entry.ppn == k.pool[1].value.ppn;
    assert Through(first.entry, loaded2.entry, loaded2.entry.(vpn := b.firstVpn, readOnly := b.readOnly)) == first.entry;
  }
}
